=== FILE: README.md ===
# A Dafny model of the QtLog `Log` singleton

QtLog installs a Qt message handler. The handler formats each message and prints it to standard output, colouring it by severity. It appends the message to a unified default log file and to a per-category file `<folder>/<category>.log`, which it opens on first use. After every message it rolls any file larger than `MAX_FILE_SIZE` over to `<folder>/<category>.log.<index>`.

This project models that core as pure functions over immutable state:

- `Options`: the option type.
- `Text`: prefix tests, the decimal parse and print used for rolled-file indices (`QString::toUInt`, `QString::number`), `QString::section('.', -1)`, and the ordering of category names.
- `Format`: the severity tag of each message type, the file line `timestamp TAG category: message location`, and the SGR colour wrapper of the console copy.
- `RolloverIndex`: `getAvailableLogFileIndex`, both as written and as intended.
- `Files`: the file system, as a map from full path to content. A file's size is the length of its content.
- `Registry`: `QMap<QString, CategoryHelper*>`. It is a strictly sorted sequence of slots, so iteration order is the key order and the map holds one entry per name. Each entry is one of four things: a live helper on an open file; a live helper whose file a failed rename has closed; a dangling pointer to a deleted helper; or a null pointer.
- `Logger`: the `Log` fields, the constructor, `init`, `openLogFile`, `cleanCategory`, `setUseLogs` and the destructor.
- `Rollover`: `postLog`.
- `Dispatch`: `handleMessage`.
- `Invariants`: the well-formedness invariant every operation keeps, and the two halves of the `init` and failed-reopen findings.

Each operation maps a `Sys` to an `Outcome`. A `Sys` bundles the log object with the file system, the console lines, the emitted `logMessageReceived` signals and the `qCritical` reports. A `qCritical` raised while the handler is running is not passed back to it: Qt's per-thread recursion guard sends it to standard error, and the model records it as a diagnostic. An `Outcome` is one of:

- `Ok`: the operation returned normally, with the new `Sys`;
- `InvalidArgument`: `std::invalid_argument` was thrown;
- `Terminated`: `qFatal` ended the process;
- `Undefined`: the code dereferences a null or already deleted `CategoryHelper`.

The file system's answers are an `Env`: the paths on which open, mkpath, remove and rename fail. An `Env` is fixed for the whole of one operation, so within one `handleMessage` a path answers an open the same way each time it is tried. For example, a category opened lazily while the message is delivered cannot then fail its reopen in the same call's `postLog`. Different calls may be given different `Env`s. The timestamp and the location suffix are opaque string parameters.

The code and the header comment of `init` disagree: the comment says that calls after the first have no effect, but the code overwrites the default category name first. The model follows the code and records the difference under Findings. After a rollover, the new file is opened with the same flags as any other file, in append mode, so content already under that name is kept. The model follows the code here too.

## Model

| member | source | states |
|---|---|---|
| Text.ParseNatToString | log.cpp:231 | Printing an index in decimal and reading it back with the unsigned parse gives the index again, for every value a quint32 holds. |
| Text.LastSectionIsLastField | log.cpp:225 | The last '.'-separated section of a name is a suffix of it and contains no '.', and when it is shorter than the name a '.' precedes it. |
| Text.LastSectionAfterDot | log.cpp:225 | The last section of `p.d` is `d` whenever `d` has no '.'. |
| Text.LessTransitive | log.h:131 | The order on category names is transitive, as the map's key order needs. |
| Text.LessTotal | log.h:131 | Any two distinct category names are ordered one way or the other. |
| Text.LessAfterPrefix | log.cpp:214-218 | Names that share a prefix sort as their remainders do, which fixes the name order of rolled files in a listing. |
| Text.ParseUInt | log.cpp:231 | The unsigned parse succeeds exactly on a non-empty run of decimal digits whose value fits in a quint32, and then gives that value. An empty, non-digit or out-of-range suffix gives no number. |
| Text.NatToString | log.cpp:252 | An index is printed as a non-empty run of digits with no leading zero, whose value is the index. |
| Text.NatToStringStartsWithLeadingDigit | log.cpp:251-252 | The decimal spelling of an index starts with its leading digit. |
| Format.Code | log.cpp:112-143 | Every severity tag is exactly three characters long. |
| Format.CodeRoundTrip | log.cpp:112-143 | Each tag reads back as the severity it was written for, so the five tags DBG, INF, WRN, CRI and FAT are distinct. |
| Format.SgrWrap | log.cpp:17 | The coloured copy starts with `ESC [ n m` and ends with the reset `ESC [ 0 m`, and the text sits unchanged between them. |
| Format.FileLine | log.cpp:110-138 | A file line is seven characters longer than its timestamp, category, message and location together, and it ends with the message followed by the location. |
| Format.ConsoleLine | log.cpp:112-139 | The console copy equals the file line exactly for info messages. For every other severity it is nine characters longer, and the file line sits between a five-character colour prefix and the four-character reset. |
| Format.FileLineLayout | log.cpp:110-142 | A file line starts with the timestamp and a space, carries the severity tag at the fixed position after it, and continues with ` category: message` and the location. |
| Format.ConsoleLineWrapsFileLine | log.cpp:112-143 | Debug lines are printed in colour 32, warnings in 33, critical and fatal lines in 31, and info lines uncoloured. Removing the wrapper gives back the file line. |
| RolloverIndex.AvailableIndex | log.cpp:213-244 | The index is in 1..100. When it is above 1, it is one past the largest index present, and it is 1 exactly when some index present is at least 100 or none is above 0. |
| RolloverIndex.ListingMatchesSet | log.cpp:221-243 | Without the quint32 wrap, the loop over a directory listing computes the set-level index. |
| RolloverIndex.ListingOrderIrrelevant | log.cpp:218-237 | Without the wrap, two listings of the same files give the same index in any order. |
| RolloverIndex.AvailableIndexAsWritten | log.cpp:213-244 | The loop as written never answers above 100. |
| RolloverIndex.AsWrittenAgreesBelowWrap | log.cpp:221-243 | While no suffix is 4294967295, the code as written and the intended index agree. |
| RolloverIndex.AsWrittenWrapsToZero | log.cpp:233-234 | A rolled file with suffix 4294967295 makes the code as written answer 0, where the intended answer is 1. |
| RolloverIndex.AsWrittenDependsOnOrder | log.cpp:223-237 | With the same two files listed in opposite orders, the loop as written answers 6 and 0. |
| RolloverIndex.AsWrittenInNameOrder | log.cpp:214-241 | In QDir's name order, `<base>.log.4294967295` sorts before `<base>.log.5`, and the code as written answers 6. It sorts after `<base>.log.10`, and the code answers 0. The intended index is 1 for both folders. |
| RolloverIndex.RolledNameSuffix | log.cpp:216-231 | A name `<base>.log.<idx>` passes the name filter of base and its suffix reads back as idx. |
| RolloverIndex.UncountedNameIgnored | log.cpp:225-235 | A file that the filter rejects, or whose suffix is not a number, never changes the index. |
| RolloverIndex.NextIndexAfterRollover | log.cpp:239-241 | After a roll to idx, the next roll of the same base uses idx + 1. Once index 100 is reached it uses 1, so from then on every roll overwrites `<base>.log.1`. |
| RolloverIndex.ExampleSecondRollover | log.h:97-105 | `test.log` beside `test.log.1` gives index 2. |
| RolloverIndex.ExampleGapsNotFilled | log.cpp:233-235 | Rolled files 1, 2 and 4 give index 5: gaps are not refilled. |
| Files.AppendLine | log.cpp:148 | Writing a line appends the line and a newline to that file and to no other, creating the file when needed. |
| Files.ActivePathInjective | log.cpp:185 | Distinct categories get distinct path strings. |
| Files.RolledPathNotActive | log.cpp:251-252 | No rolled file is ever a category's active file. |
| Files.Listing | log.cpp:214-219 | The folder's listing holds exactly the names without '/' whose file exists directly inside the folder. |
| Files.RolledPathListed | log.cpp:214-219 | A file stored under a rolled path appears in its folder's listing under its rolled name, for a category name without '/'. |
| Registry.Lookup | log.h:131 | A missing name has no slot, and a found entry sits in a slot under that name. |
| Registry.Put | log.cpp:195 | `categories[name] = e`: the name then holds e, every other name keeps its entry, and the names gain at most this one. |
| Registry.PutPreservesSorted | log.h:131 | Assignment keeps the map in key order. |
| Registry.PutExistingKeepsKeys | log.cpp:248-276 | Reassigning a name the map holds leaves the key sequence unchanged, so postLog's iteration is not disturbed. |
| Registry.OneEntryPerName | log.h:130-131 | The map holds at most one entry per category name. |
| Registry.LookupSlot | log.h:131 | In a well-ordered map, looking up a slot's name finds that slot's entry. |
| Logger.Constructed | log.cpp:298-299 | A new log is not initialized, has logging enabled and holds no categories. |
| Logger.OpenLogFile | log.cpp:180-211 | Opening succeeds exactly when the file system lets `<folder>/<name>.log` open. On success the name maps to that file, and that file is the only one that may be added. No other name and no content changes. On failure one report is added and nothing else changes, so no file is created. |
| Logger.CleanCategory | log.cpp:279-296 | Cleaning fails only on an already deleted helper. Otherwise a live helper becomes a dangling pointer, a missing name gets a null entry. Nothing else changes: no other name, no file, no console line, no signal and no report. |
| Logger.CleanKeys | log.cpp:168-172 | Cleaning keys in turn either returns normally or deletes a helper twice. It never changes a file, a console line, a signal, a report or any field of the log other than its map. |
| Logger.Destroy | log.cpp:168-172 | The destructor either returns normally or deletes a helper twice. When it returns normally, no file, console line, signal, report or field of the log other than its map has changed. |
| Logger.CleanKeysReleases | log.cpp:168-172 | Cleaning distinct keys in turn succeeds exactly when none holds a deleted helper; then each key is released. Nothing else changes: no other name, no file, no console line, no signal and no report. |
| Logger.DestroyReleasesAll | log.cpp:168-172 | The destructor succeeds exactly when no entry is a deleted helper. It then closes every open file, leaves null entries null and changes no file. |
| Logger.SetUseLogs | log.cpp:174-178 | Only the enable switch changes; no file is closed. |
| Logger.Init | log.cpp:52-84 | An empty path or name is rejected, and the call is never undefined. It returns normally exactly when both are non-empty and either the log is initialized or mkpath and the open succeed. A repeated call changes only the default category name. A first call sets the folder, opens the default file and terminates exactly when mkpath or the open fails. |
| Logger.InitFirstCallWins | log.h:33 | After the first successful call, further calls with valid arguments leave the state unchanged. The call is never undefined. |
| Rollover.RolloverTarget | log.cpp:250-252 | The rolled path is `<folder>/<key>.log.<idx>` with idx in 1..100. It is never any category's active file. |
| Rollover.RollTo | log.cpp:256-274 | A roll of a live helper, on an open or a closed file, always returns normally. It touches neither the console, the signals nor any field of the log other than its map. Only key's entry can change, and it never becomes null. It becomes a deleted helper only when the reopen of `<folder>/<key>.log` fails. |
| Rollover.RolloverStep | log.cpp:248-275 | One key's step is defined exactly when its entry is a live helper, whether its file is open or closed; otherwise it is undefined. A file that is not oversized is left alone. Only key's entry changes, and it is left live, or deleted when the reopen fails. |
| Rollover.PostLogKeys | log.cpp:248-276 | The loop either returns normally or dereferences a null or deleted helper. It prints nothing, emits no signal, changes no field of the log other than its map, and leaves every name it does not visit as it was. |
| Rollover.PostLog | log.cpp:246-277 | postLog either returns normally or dereferences a null or deleted helper. It prints nothing, emits no signal and changes no field of the log other than its map. |
| Rollover.PostLogKeysErasing | log.cpp:248-276 | The corrected loop either returns normally or meets a null or deleted helper. It changes no field of the log other than its map, and leaves unvisited names as they were. |
| Rollover.PostLogKeysErasingKeepsLive | log.cpp:248-276 | With every step corrected, a whole pass over distinct registered keys of a map of live helpers returns normally and leaves every helper live. A failed reopen anywhere in the pass only removes that key. |
| Rollover.PostLogKeysLiveOk | log.cpp:248-276 | A pass over distinct keys that all hold live helpers returns normally. |
| Rollover.PostLogLiveOk | log.cpp:246-277 | postLog over a map whose helpers are all live returns normally. |
| Rollover.RolloverStepErasing | log.cpp:263-267 | The corrected step. Where the code leaves a deleted helper after a failed reopen, the key leaves the map instead. This happens only when that reopen fails. The step is defined exactly when the step as written is, and it leaves key absent or live. Every other name and every field of the log other than its map stay as they were. |
| Rollover.RolloverOnlyOversized | log.cpp:249 | Rollover happens only strictly above 1,024,000 characters. |
| Rollover.RolloverRemoveFails | log.cpp:258-273 | When an existing target cannot be removed, nothing is renamed and one report is added. |
| Rollover.RolloverRenameFails | log.cpp:263-270 | When the file system refuses the rename, the file has already been closed. The key keeps its helper on the closed file, and no other entry changes. Only the old rolled target is gone, one report is added, and the file stays oversized, so the next pass tries again. |
| Rollover.RolloverSucceeds | log.cpp:250-267 | After a successful roll, the target holds exactly the old content and the name is registered again on an empty file, or holds a deleted helper when the reopen fails. No other file or name changes. |
| Rollover.RollToSucceeds | log.cpp:263-267 | Renaming, cleaning and reopening move the content to the target and reregister the key without changing the key sequence. |
| Rollover.RenameMovesContent | log.cpp:264 | A rename moves the content to the target and removes the source, touching no other file. |
| Rollover.PostLogKeysNothingOversized | log.cpp:248-249 | A pass over live helpers, none of them oversized, changes nothing. |
| Rollover.PostLogNothingOversized | log.cpp:246-277 | postLog over a map of live helpers, none of them oversized, changes nothing. |
| Dispatch.WriteTo | log.cpp:148 | Writing through a name is defined exactly when it holds a live helper. An open file gets the line and a newline, and no other file changes. A closed file takes nothing. |
| Dispatch.Deliver | log.cpp:104-160 | A message is delivered exactly when the default helper is live and the category is reserved, unregistered or live. Delivery adds exactly one console line and one signal. |
| Dispatch.HandleMessage | log.cpp:96-102 | An empty message, or any message while logging is disabled, changes nothing. A message either returns normally or dereferences a null or deleted helper. |
| Dispatch.DeliverReserved | log.cpp:148-152 | A message for "default" or "main" lands once in the default file and nowhere else. |
| Dispatch.DeliverRegistered | log.cpp:148-159 | A message for a registered category lands in the default file and the category's file, so twice in the default file when the category is the default one. |
| Dispatch.DeliverUnregistered | log.cpp:152-156 | A message for a new category opens its file and lands there too. When the open fails, it lands only in the default file and one report is added. |
| Dispatch.FailedRenameLosesLines | log.cpp:148-158 | After the file system refuses a rollover's rename, a line written through that category's helper reaches no file. |
| Dispatch.UseLogsSwitch | log.cpp:101-102 | Disabling logging makes messages no-ops, and re-enabling it restores exactly the previous behaviour. |
| Invariants.ConstructedWf | log.cpp:298-299 | A new log is well formed. |
| Invariants.OpenLogFileKeepsWf | log.cpp:180-211 | Opening a file keeps the map ordered and every live helper on its own existing file. |
| Invariants.InitKeepsWf | log.cpp:52-84 | init keeps the log well formed. |
| Invariants.InitFirstCallWinsKeepsWf | log.cpp:52-84 | init as documented keeps the log well formed. |
| Invariants.WriteToKeepsWf | log.cpp:148 | Writing a line keeps the log well formed. |
| Invariants.DeliverKeepsWf | log.cpp:104-160 | Delivering a message keeps the log well formed. |
| Invariants.RolloverStepKeepsWf | log.cpp:249-274 | A rollover step keeps the log well formed, whatever the file system answers. |
| Invariants.RollToKeepsWf | log.cpp:256-274 | Every branch of a roll keeps the log well formed: the failed removal, the refused rename, the rename that leaves the file closed, and the successful rename and reopen. |
| Invariants.CloseKeepsWf | log.cpp:264-269 | A helper whose file the rename closed still points at its category's own existing file. |
| Invariants.PostLogKeysKeepsWf | log.cpp:246-277 | postLog keeps the log well formed. |
| Invariants.HandleMessageKeepsWf | log.cpp:86-166 | handleMessage keeps the log well formed. |
| Invariants.InitAgainLosesDefault | log.cpp:61-64 | A second init with a name that has no file keeps the folder, map and files, but the next enabled message dereferences a null helper. |
| Invariants.DeliverKeepsAllLive | log.cpp:148-159 | Delivering a message never leaves a name holding a null or deleted helper. |
| Invariants.ReopenFailureBreaksNextMessage | log.cpp:264-266 | When a roll's rename succeeds but the reopen fails, key keeps the helper cleanCategory deleted. The next enabled message for that category is then undefined: through line 148 when key is the default category, through line 158 otherwise. |
| Invariants.StaleBreaksNextMessage | log.cpp:148-158 | A message for a category whose key holds a deleted helper is undefined. This holds when the key is the default category, or when the default helper is live and the category is not reserved. |
| Invariants.LiveNextMessageOk | log.cpp:86-166 | From a well-formed state in which every helper, the default one included, is live, any message returns normally. |
| Invariants.ErasingKeepsWf | log.cpp:263-267 | The corrected step keeps the log well formed. |
| Invariants.ErasingKeepsNextMessage | log.cpp:264-266 | With the corrected step, rolling any category other than the default one leaves the log usable. From a well-formed state whose helpers are all live, the next message returns normally, for any category and whatever the file system answers. |
| Invariants.InitFirstCallWinsKeepsDelivery | log.h:33 | With init as documented, a second call leaves every later message's behaviour unchanged. |

## Left out

- Concurrency: the mutex, and the thread-safety of `instance()`, are not modelled. Every operation is atomic.
- Diagnostics are not modelled as text. A `qCritical` from `openLogFile` or `postLog` is raised while the handler runs, and Qt's recursion guard sends it to standard error. The model records it as a `Diagnostic` value and leaves out the exact text.
- `qInstallMessageHandler` and the global `messageHandler` trampoline are not modelled. Messages enter through `HandleMessage` directly.
- The clock, `QDateTime` and `DEFAULT_TIME_FORMAT` are not modelled. The timestamp is an opaque parameter.
- The `QT_DEBUG` location suffix is an opaque parameter.
- `file`, `method`, `line` and `version` are unused by the code, so the model drops them.
- `QtSystemMsg` is the same value as `QtCriticalMsg` and is not a separate severity.
- Writes to standard output are recorded as strings. Flushing is not modelled.
- Text encoding and text-mode line endings are not modelled. A file's size is its character count, and each line ends with one "\n".
- `bad_alloc` and other exceptions are not modelled. `catch(bad_alloc&)` comes first and rethrows (log.cpp:76-78, 203-205), and nothing the visible code throws inside the `try` blocks reaches the `catch (...)` paths of `init` and `openLogFile`. Those paths are left out.
- The leak is not modelled. When `openLogFile` replaces an entry that already holds a live helper, the old helper is never deleted; the model only records the new entry.
- QDir name filters are not modelled in full. The filter `<base>.log.*` is treated as a literal, case-sensitive prefix test. No `QDir::CaseSensitive` flag is passed, so the source matches case-insensitively on every platform. The scan for `net` then also counts `Net.log.7`, which the model does not. Wildcard characters inside a category name are left out too. Symbolic links, directories and hidden files are assumed absent from the listing.
- `QString::arg` placeholders are not modelled. A "%" followed by digits in a folder or category name would be substituted again; names are assumed free of such sequences.
- Text.ParseUInt: does not accept the leading and trailing whitespace or the "+" sign that `QString::toUInt` tolerates. Rolled names never contain them.
- Text.Less: compares characters by code point rather than by UTF-16 code unit. The two orders differ only above U+FFFF.
- Paths are compared as strings. Case-insensitive file systems are not modelled; on Windows or a default macOS volume, `<folder>/Net.log` and `<folder>/net.log` are one file. Two categories that differ only in case would then share a file and each roll it over on its own. Path aliases through `.`, `..` or symbolic links in the folder are not modelled either.
- The file system is a flat map from path to content. Directories exist implicitly, and `mkpath`, `open`, `remove` and `rename` fail only where the `Env` says so. `remove` and `rename` are modelled as atomic.
- Rollover.RolloverTarget: computes the rolled index with the corrected `AvailableIndex` (see Findings), not with the wrapping loop. With `<key>.log.4294967295` in the folder, the code as written renames to the as-written index. That is 0, or one past a suffix that sorts after the wrapping name, and it removes any file already there. After a first wrap, `<key>.log.0` exists and sorts before `<key>.log.4294967295`, so every later roll removes it again. The model always uses `<key>.log.1` there, after removing any existing `<key>.log.1`.
- Invariants.ErasingKeepsNextMessage: covers categories other than the default one. The handler writes the default file through the map without a check (log.cpp:147-148), so taking the default key out of the map would not make its failed reopen harmless. The model proposes no correction for that case.
- `logMessageReceived` is recorded as a sequence of events. Its receivers are not modelled.

## Findings

| source | as written | input that shows it | evidently intended | confidence | as-written member | corrected member |
|---|---|---|---|---|---|---|
| log.cpp:233-234 | `fileIndex + 1` is computed in a quint32, so a suffix of 4294967295 wraps the running index to 0. Files listed after it then set the index again. The result therefore depends on how the other suffixes sort against the wrapping name in QDir's name order. | `{app.log.4294967295}` gives 0. `{app.log.10, app.log.4294967295}` gives 0. `{app.log.4294967295, app.log.5}` gives 6. | An index in 1..100 that depends only on which files exist: here 1, since the largest index is past 100. | not executed | RolloverIndex.AsWrittenWrapsToZero | RolloverIndex.AvailableIndex |
| log.cpp:264-266 | After a successful rename, `cleanCategory` deletes the helper but leaves the pointer in the map, and `openLogFile` replaces it only when the reopen succeeds. A failed reopen therefore leaves a deleted helper under the key, so a per-category file failure becomes fatal. The next enabled message dereferences it: at line 148 for the default category, at line 158 for its own category, and at line 249 in the following `postLog`. | Category `net` has an oversized `net.log`. The rename to `net.log.1` succeeds and reopening `net.log` fails. The next `qDebug` for `net` writes through the deleted helper. | Failures of per-category opens, renames and removals stay non-fatal. The key leaves the map, and the next message for the category reopens its file. | not executed | Invariants.ReopenFailureBreaksNextMessage | Rollover.RolloverStepErasing |
| log.cpp:61-64 | `init` overwrites `defaultCategoryName` before testing `isInitialized`. A second call with another name keeps the old folder and files, but the default category becomes a name that has no open file. | `init("/tmp/logs", "app")` then `init("/tmp/logs", "other")` and any non-empty message: `categories["other"]` is a null pointer that is dereferenced. | As the header documents: once initialized, further calls have no effect. | not executed | Invariants.InitAgainLosesDefault | Logger.InitFirstCallWins |

=== FILE: dispatch.dfy ===
/**
 Log::handleMessage: formats one message, prints it, appends it to the
 default category's file, signals it, appends it to the category's own
 file (opened lazily) unless the category is "default" or "main", and
 finally runs the rollover pass.
 */
module Dispatch {
  import opened Options
  import opened Format
  import opened Registry
  import opened Files
  import opened Logger
  import opened Rollover

  /** Category names whose messages go to the default file only. */
  predicate Reserved(category: string) {
    category == "default" || category == "main"
  }

  /**
   Writes a line and a newline through the stream of name's helper. A
   closed file takes nothing, so the line is lost.
   */
  function WriteTo(s: Sys, name: string, line: string): (r: Outcome)
    ensures r.Ok? <==> Lookup(s.log.categories, name).Some? && Live(Lookup(s.log.categories, name).value)
    ensures r.Ok? || r.Undefined?
    ensures r.Ok? && Lookup(s.log.categories, name).value.Closed? ==> r.sys == s
    ensures r.Ok? && Lookup(s.log.categories, name).value.Open? ==> var p := Lookup(s.log.categories, name).value.path;
      && ContentOf(r.sys.fs, p) == ContentOf(s.fs, p) + line + "\n"
      && (forall q :: q != p ==> ContentOf(r.sys.fs, q) == ContentOf(s.fs, q))
      && r.sys.fs.Keys == s.fs.Keys + {p}
      && r.sys.(fs := s.fs) == s
  {
    match Lookup(s.log.categories, name)
    case Some(Open(p)) => Ok(s.(fs := AppendLine(s.fs, p, line)))
    case Some(Closed(_)) => Ok(s)
    case _ => Undefined("a message is written through a null or deleted CategoryHelper")
  }

  /** A category's entry that handleMessage can write through or create: a live helper, or none yet. */
  predicate Writable(s: Sys, category: string) {
    Lookup(s.log.categories, category).None? || Live(Lookup(s.log.categories, category).value)
  }

  /** The default category's entry is a live helper. */
  predicate DefaultLive(s: Sys) {
    Lookup(s.log.categories, s.log.defaultCategoryName).Some? && Live(Lookup(s.log.categories, s.log.defaultCategoryName).value)
  }

  /**
   Everything handleMessage does between taking the lock and calling
   postLog, for an enabled, non-empty message: one console line, one line
   in the default file, one signal, and the category's file.
   */
  function Deliver(s: Sys, env: Env, sev: Severity, category: string, timestamp: string, location: string, message: string): (r: Outcome)
    ensures r.Ok? <==> (DefaultLive(s) && (Reserved(category) || Writable(s, category)))
    ensures r.Ok? || r.Undefined?
    ensures r.Ok? ==> var line := FileLine(timestamp, sev, category, message, location);
      && r.sys.console == s.console + [ConsoleLine(sev, line)]
      && r.sys.events == s.events + [Event(sev, line)]
  {
    var line := FileLine(timestamp, sev, category, message, location);
    var printed := s.(console := s.console + [ConsoleLine(sev, line)]);
    match WriteTo(printed, s.log.defaultCategoryName, line)
    case Ok(written) =>
      var signalled := written.(events := written.events + [Event(sev, line)]);
      if Reserved(category) then Ok(signalled)
      else if Lookup(signalled.log.categories, category).Some? then WriteTo(signalled, category, line)
      else
        var o := OpenLogFile(signalled, env, category);
        if o.ok then WriteTo(o.sys, category, line) else Ok(o.sys)
    case other => other
  }

  /** handleMessage: a no-op for an empty message or while logging is disabled. */
  function HandleMessage(s: Sys, env: Env, sev: Severity, category: string, timestamp: string, location: string, message: string): (r: Outcome)
    ensures |message| == 0 || !s.log.useLogs ==> r == Ok(s)
    ensures r.Ok? || r.Undefined?
  {
    if |message| == 0 || !s.log.useLogs then Ok(s)
    else
      match Deliver(s, env, sev, category, timestamp, location, message)
      case Ok(delivered) => PostLog(delivered, env)
      case other => other
  }

  /**
   A message for "default" or "main" lands once in the default file and
   nowhere else; no category file is created.
   */
  lemma DeliverReserved(s: Sys, env: Env, sev: Severity, category: string, timestamp: string, location: string, message: string, pd: string)
    requires Reserved(category)
    requires Lookup(s.log.categories, s.log.defaultCategoryName) == Some(Open(pd))
    ensures var r := Deliver(s, env, sev, category, timestamp, location, message);
      var line := FileLine(timestamp, sev, category, message, location);
      && r.Ok?
      && ContentOf(r.sys.fs, pd) == ContentOf(s.fs, pd) + line + "\n"
      && (forall q :: q != pd ==> ContentOf(r.sys.fs, q) == ContentOf(s.fs, q))
      && r.sys.log == s.log
  {
  }

  /**
   A message for a registered category other than "default" and "main"
   lands in the default file and in the category's file: twice in the
   default file when the category is the default category itself.
   */
  lemma DeliverRegistered(s: Sys, env: Env, sev: Severity, category: string, timestamp: string, location: string, message: string, pd: string, pc: string)
    requires !Reserved(category)
    requires Lookup(s.log.categories, s.log.defaultCategoryName) == Some(Open(pd))
    requires Lookup(s.log.categories, category) == Some(Open(pc))
    requires pd == PathOf(s.log, s.log.defaultCategoryName) && pc == PathOf(s.log, category)
    ensures var r := Deliver(s, env, sev, category, timestamp, location, message);
      var line := FileLine(timestamp, sev, category, message, location);
      && r.Ok?
      && (category == s.log.defaultCategoryName ==>
            ContentOf(r.sys.fs, pd) == ContentOf(s.fs, pd) + line + "\n" + line + "\n")
      && (category != s.log.defaultCategoryName ==>
            && ContentOf(r.sys.fs, pd) == ContentOf(s.fs, pd) + line + "\n"
            && ContentOf(r.sys.fs, pc) == ContentOf(s.fs, pc) + line + "\n")
      && (forall q :: q != pd && q != pc ==> ContentOf(r.sys.fs, q) == ContentOf(s.fs, q))
      && r.sys.log == s.log
  {
    var line := FileLine(timestamp, sev, category, message, location);
    if category != s.log.defaultCategoryName {
      if pd == pc {
        ActivePathInjective(s.log.fullLogFolder, s.log.defaultCategoryName, category);
      }
    } else {
      assert ContentOf(s.fs, pd) + line + "\n" + line + "\n" == (ContentOf(s.fs, pd) + line + "\n") + line + "\n";
    }
  }

  /**
   A message for a category not yet registered opens `<folder>/<category>.log`
   and lands there and in the default file. When the open fails the
   message still lands in the default file, the failure is reported and
   the registry is unchanged.
   */
  lemma DeliverUnregistered(s: Sys, env: Env, sev: Severity, category: string, timestamp: string, location: string, message: string, pd: string)
    requires !Reserved(category)
    requires Lookup(s.log.categories, s.log.defaultCategoryName) == Some(Open(pd))
    requires pd == PathOf(s.log, s.log.defaultCategoryName)
    requires Lookup(s.log.categories, category) == None
    ensures var r := Deliver(s, env, sev, category, timestamp, location, message);
      var line := FileLine(timestamp, sev, category, message, location);
      var pc := PathOf(s.log, category);
      && r.Ok?
      && ContentOf(r.sys.fs, pd) == ContentOf(s.fs, pd) + line + "\n"
      && (pc !in env.openFails ==>
            && Lookup(r.sys.log.categories, category) == Some(Open(pc))
            && ContentOf(r.sys.fs, pc) == ContentOf(s.fs, pc) + line + "\n"
            && r.sys.diagnostics == s.diagnostics)
      && (pc in env.openFails ==>
            && r.sys.log == s.log
            && ContentOf(r.sys.fs, pc) == ContentOf(s.fs, pc)
            && r.sys.diagnostics == s.diagnostics + [CouldNotOpen(category)])
      && (forall q :: q != pd && q != pc ==> ContentOf(r.sys.fs, q) == ContentOf(s.fs, q))
  {
    var pc := PathOf(s.log, category);
    if pc == pd {
      ActivePathInjective(s.log.fullLogFolder, s.log.defaultCategoryName, category);
    }
  }

  /**
   After the file system refuses a rollover's rename, the category's file
   is closed: a line written through its helper reaches no file at all.
   */
  lemma FailedRenameLosesLines(s: Sys, env: Env, key: string, p: string, line: string)
    requires HoldsFile(s, key, p)
    requires p == PathOf(s.log, key)
    requires |ContentOf(s.fs, p)| > MaxFileSize
    requires var t := RolloverTarget(s, key); t !in s.fs || t !in env.removeFails
    requires p in env.renameFails
    ensures var r := RolloverStep(s, env, key);
      r.Ok? && WriteTo(r.sys, key, line) == Ok(r.sys)
  {
    RolloverRenameFails(s, env, key, p);
  }

  /**
   Switching logging off makes handleMessage a no-op, and switching it
   back on restores exactly the behaviour it had: no file was closed in
   between.
   */
  lemma UseLogsSwitch(s: Sys, env: Env, sev: Severity, category: string, timestamp: string, location: string, message: string)
    requires s.log.useLogs
    ensures var off := SetUseLogs(s, false);
      && HandleMessage(off, env, sev, category, timestamp, location, message) == Ok(off)
      && HandleMessage(SetUseLogs(off, true), env, sev, category, timestamp, location, message)
         == HandleMessage(s, env, sev, category, timestamp, location, message)
  {
  }
}

=== FILE: files.dfy ===
/**
 The abstract file system the log component writes to: a map from a
 file's full path to its content. Paths are plain strings, compared
 without normalisation; a file's size is the length of its content.
 */
module Files {
  import opened Text
  import opened RolloverIndex

  type FileSystem = map<string, string>

  function ContentOf(fs: FileSystem, path: string): string {
    if path in fs then fs[path] else ""
  }

  /** Appends a line and its newline to the file at path, creating the file when it is missing. */
  function AppendLine(fs: FileSystem, path: string, line: string): (fs': FileSystem)
    ensures fs'.Keys == fs.Keys + {path}
    ensures ContentOf(fs', path) == ContentOf(fs, path) + line + "\n"
    ensures forall p :: p != path ==> ContentOf(fs', p) == ContentOf(fs, p)
  {
    fs[path := ContentOf(fs, path) + line + "\n"]
  }

  /** `<folder>/<name>.log`: the file a category writes to. */
  function ActivePath(folder: string, name: string): string {
    folder + "/" + name + LogExtension
  }

  /** `<folder>/<name>.log.<idx>`: where a rolled file of name goes. */
  function RolledPath(folder: string, name: string, idx: nat): string {
    folder + "/" + RolledName(name, idx)
  }

  /** The names of the files directly inside folder (QDir::entryInfoList). */
  function Listing(fs: FileSystem, folder: string): (names: set<string>)
    ensures forall n :: n in names ==> '/' !in n && folder + "/" + n in fs
    ensures forall n :: '/' !in n && folder + "/" + n in fs ==> n in names
  {
    var names := set p | p in fs && StartsWith(p, folder + "/") && '/' !in p[|folder| + 1..] :: p[|folder| + 1..];
    ListingPaths(fs, folder, names);
    names
  }

  lemma ListingPaths(fs: FileSystem, folder: string, names: set<string>)
    requires names == set p | p in fs && StartsWith(p, folder + "/") && '/' !in p[|folder| + 1..] :: p[|folder| + 1..]
    ensures forall n :: n in names ==> '/' !in n && folder + "/" + n in fs
    ensures forall n :: '/' !in n && folder + "/" + n in fs ==> n in names
  {
    forall n | n in names
      ensures '/' !in n && folder + "/" + n in fs
    {
      var p :| p in fs && StartsWith(p, folder + "/") && '/' !in p[|folder| + 1..] && n == p[|folder| + 1..];
      assert p == p[..|folder| + 1] + p[|folder| + 1..];
    }
    forall n | '/' !in n && folder + "/" + n in fs
      ensures n in names
    {
      var p := folder + "/" + n;
      assert p[..|folder| + 1] == folder + "/";
      assert p[|folder| + 1..] == n;
    }
  }

  /** Distinct categories write to distinct files. */
  lemma ActivePathInjective(folder: string, a: string, b: string)
    requires ActivePath(folder, a) == ActivePath(folder, b)
    ensures a == b
  {
    var pa := ActivePath(folder, a);
    assert pa[|folder| + 1..|pa| - 4] == a;
    assert ActivePath(folder, b)[|folder| + 1..|pa| - 4] == b;
  }

  /**
   No rolled file is ever some category's active file: a rolled path ends
   in a digit, an active path in "log".
   */
  lemma RolledPathNotActive(folder: string, a: string, b: string, idx: nat)
    ensures RolledPath(folder, a, idx) != ActivePath(folder, b)
  {
    var digits := NatToString(idx);
    var rolled := RolledPath(folder, a, idx);
    assert rolled == (folder + "/" + a + LogExtension + ".") + digits;
    assert rolled[|rolled| - 1] == digits[|digits| - 1];
    assert IsDigit(digits[|digits| - 1]);
    assert ActivePath(folder, b)[|ActivePath(folder, b)| - 1] == 'g';
  }

  /** A file stored under a rolled path shows up in the folder's listing under its rolled name. */
  lemma RolledPathListed(fs: FileSystem, folder: string, name: string, idx: nat)
    requires RolledPath(folder, name, idx) in fs
    requires '/' !in name
    ensures RolledName(name, idx) in Listing(fs, folder)
  {
  }
}

=== FILE: format.dfy ===
/**
 The severity classifier and line formatter of Log::handleMessage: the
 line written to files is `timestamp CODE category: message location`,
 and the console copy is the same line wrapped in an SGR colour sequence
 (ECMA-48 section 8.3.117, "SELECT GRAPHIC RENDITION") except for
 informational messages. The timestamp and the location suffix are opaque
 inputs.
 */
module Format {
  import opened Options
  import opened Text

  /** QtMsgType, without QtSystemMsg (an alias of QtCriticalMsg). */
  datatype Severity = Debug | Info | Warning | Critical | Fatal

  const Green: nat := 32
  const Yellow: nat := 33
  const Red: nat := 31

  /** Three-letter tag written after the timestamp. */
  function Code(sev: Severity): (c: string)
    ensures |c| == 3
  {
    match sev
    case Debug => "DBG"
    case Info => "INF"
    case Warning => "WRN"
    case Critical => "CRI"
    case Fatal => "FAT"
  }

  /** Reads a tag back; the inverse of Code. */
  function SeverityOfCode(c: string): Option<Severity> {
    if c == "DBG" then Some(Debug)
    else if c == "INF" then Some(Info)
    else if c == "WRN" then Some(Warning)
    else if c == "CRI" then Some(Critical)
    else if c == "FAT" then Some(Fatal)
    else None
  }

  /** SGR colour parameter of the console copy; informational lines are not coloured. */
  function Colour(sev: Severity): Option<nat> {
    match sev
    case Debug => Some(Green)
    case Info => None
    case Warning => Some(Yellow)
    case Critical => Some(Red)
    case Fatal => Some(Red)
  }

  const Esc: char := '\U{1B}'

  /** `ESC [ n m` followed by the text and the reset sequence `ESC [ 0 m`. */
  function SgrWrap(text: string, colour: nat): (r: string)
    ensures StartsWith(r, [Esc, '['] + NatToString(colour) + "m")
    ensures r[|r| - 4..] == [Esc, '[', '0', 'm']
    ensures |r| == |text| + |NatToString(colour)| + 7
    ensures r[|NatToString(colour)| + 3..|r| - 4] == text
  {
    [Esc, '['] + NatToString(colour) + "m" + text + [Esc, '[', '0', 'm']
  }

  /** The line appended to the log files; it ends with the message and the location suffix. */
  function FileLine(timestamp: string, sev: Severity, category: string, message: string, location: string): (line: string)
    ensures |line| == |timestamp| + |category| + |message| + |location| + 7
    ensures line[|line| - |message| - |location|..] == message + location
  {
    timestamp + " " + Code(sev) + " " + category + ": " + message + location
  }

  /**
   The copy of the line printed to standard output: the line itself for
   informational messages, otherwise the line inside a five-character
   colour prefix and the four-character reset.
   */
  function ConsoleLine(sev: Severity, line: string): (out: string)
    ensures sev == Info <==> out == line
    ensures sev != Info ==> |out| == |line| + 9 && out[5..|out| - 4] == line
  {
    match Colour(sev)
    case None => line
    case Some(c) => ColourWidth(c); SgrWrap(line, c)
  }

  /** Every colour parameter in use is written with two digits. */
  lemma ColourWidth(c: nat)
    requires c == Green || c == Yellow || c == Red
    ensures |NatToString(c)| == 2
  {
    assert NatToString(c) == NatToString(c / 10) + [DigitChar(c % 10)];
  }

  /** Every tag reads back as the severity it was written for, so the tags are distinct. */
  lemma CodeRoundTrip(sev: Severity)
    ensures SeverityOfCode(Code(sev)) == Some(sev)
  {
  }

  /**
   The file line starts with the timestamp and a space, carries the severity
   tag at the fixed position after it, and after a further space continues
   with `category: message` and the location suffix.
   */
  lemma FileLineLayout(timestamp: string, sev: Severity, category: string, message: string, location: string)
    ensures var line := FileLine(timestamp, sev, category, message, location);
      && |line| >= |timestamp| + 5
      && line[..|timestamp| + 1] == timestamp + " "
      && SeverityOfCode(line[|timestamp| + 1..|timestamp| + 4]) == Some(sev)
      && line[|timestamp| + 4..] == " " + category + ": " + message + location
  {
    var t := |timestamp|;
    var tag := Code(sev);
    var rest := " " + category + ": " + message + location;
    var line := FileLine(timestamp, sev, category, message, location);
    assert line == (timestamp + " ") + tag + rest;
    assert line[..t + 1] == timestamp + " ";
    assert line[t + 1..t + 4] == tag;
    assert line[t + 4..] == rest;
    CodeRoundTrip(sev);
  }

  /**
   Debug, warning, critical and fatal lines reach the console wrapped in
   colours 32, 33, 31 and 31; info lines reach it unchanged. In every case
   the file line is recoverable by dropping the fixed-size wrapper.
   */
  lemma ConsoleLineWrapsFileLine(sev: Severity, line: string)
    ensures var out := ConsoleLine(sev, line);
      && (sev == Info ==> out == line)
      && (sev == Debug ==> out == [Esc, '[', '3', '2', 'm'] + line + [Esc, '[', '0', 'm'])
      && (sev == Warning ==> out == [Esc, '[', '3', '3', 'm'] + line + [Esc, '[', '0', 'm'])
      && (sev in {Critical, Fatal} ==> out == [Esc, '[', '3', '1', 'm'] + line + [Esc, '[', '0', 'm'])
      && (sev != Info ==> out[5..|out| - 4] == line)
  {
    if sev != Info {
      var c := Colour(sev).value;
      var digits := NatToString(c);
      assert digits == NatToString(c / 10) + [DigitChar(c % 10)];
      assert NatToString(c / 10) == [DigitChar(3)];
      var out := ConsoleLine(sev, line);
      assert out == [Esc, '['] + digits + "m" + line + [Esc, '[', '0', 'm'];
    }
  }
}

=== FILE: invariants.dfy ===
/**
 The invariant every reachable Log state keeps: the registry holds at
 most one entry per name (its slots are strictly sorted), every open
 entry writes to `<folder>/<name>.log` and that file exists, and nothing
 is registered before the first successful init. Each operation is
 proved to keep it.
 */
module Invariants {
  import opened Options
  import opened Format
  import opened RolloverIndex
  import opened Registry
  import opened Files
  import opened Logger
  import opened Rollover
  import opened Dispatch

  /** The helper of name, if live, is on the file `<folder>/<name>.log` and that file exists. */
  predicate OpenEntryOk(s: Sys, name: string) {
    match Lookup(s.log.categories, name)
    case Some(e) => Live(e) ==> e.path == PathOf(s.log, name) && e.path in s.fs
    case None => true
  }

  ghost predicate Wf(s: Sys) {
    && Sorted(s.log.categories)
    && (forall name :: OpenEntryOk(s, name))
    && (!s.log.isInitialized ==> s.log.categories == [])
  }

  lemma ConstructedWf(fs: FileSystem)
    ensures Wf(Constructed(fs))
  {
  }

  lemma {:induction false} OpenLogFileKeepsWf(s: Sys, env: Env, name: string)
    requires Wf(s) && s.log.isInitialized
    ensures Wf(OpenLogFile(s, env, name).sys)
  {
    var o := OpenLogFile(s, env, name);
    if o.ok {
      PutPreservesSorted(s.log.categories, name, Open(PathOf(s.log, name)));
      assert o.sys.log.fullLogFolder == s.log.fullLogFolder;
      forall n
        ensures OpenEntryOk(o.sys, n)
      {
        if n != name {
          assert OpenEntryOk(s, n);
          assert Lookup(o.sys.log.categories, n) == Lookup(s.log.categories, n);
          match Lookup(s.log.categories, n)
          case Some(Open(p)) =>
            assert p in s.fs.Keys;
            assert p in o.sys.fs;
          case _ =>
        } else {
          assert Lookup(o.sys.log.categories, n) == Some(Open(PathOf(o.sys.log, n)));
        }
      }
    } else {
      forall n
        ensures OpenEntryOk(o.sys, n)
      {
        assert OpenEntryOk(s, n);
      }
    }
  }

  lemma {:induction false} InitKeepsWf(s: Sys, env: Env, logPath: string, defaultLogName: string)
    requires Wf(s)
    ensures var r := Init(s, env, logPath, defaultLogName); r.Ok? ==> Wf(r.sys)
  {
    var r := Init(s, env, logPath, defaultLogName);
    if r.Ok? && !s.log.isInitialized {
      var placed := s.(log := s.log.(defaultCategoryName := defaultLogName, fullLogFolder := logPath));
      var o := OpenLogFile(placed, env, defaultLogName);
      assert r.sys == o.sys.(log := o.sys.log.(isInitialized := true));
      PutPreservesSorted([], defaultLogName, Open(PathOf(placed.log, defaultLogName)));
      forall n
        ensures OpenEntryOk(r.sys, n)
      {
        assert Lookup(r.sys.log.categories, n) == Lookup(o.sys.log.categories, n);
      }
    } else if r.Ok? {
      forall n
        ensures OpenEntryOk(r.sys, n)
      {
        assert OpenEntryOk(s, n);
      }
    }
  }

  lemma InitFirstCallWinsKeepsWf(s: Sys, env: Env, logPath: string, defaultLogName: string)
    requires Wf(s)
    ensures var r := InitFirstCallWins(s, env, logPath, defaultLogName); r.Ok? ==> Wf(r.sys)
  {
  }

  lemma {:induction false} WriteToKeepsWf(s: Sys, name: string, line: string)
    requires Wf(s)
    ensures var r := WriteTo(s, name, line); r.Ok? ==> Wf(r.sys)
  {
    var r := WriteTo(s, name, line);
    if r.Ok? {
      forall n
        ensures OpenEntryOk(r.sys, n)
      {
        assert OpenEntryOk(s, n);
      }
    }
  }

  lemma {:induction false} DeliverKeepsWf(s: Sys, env: Env, sev: Severity, category: string, timestamp: string, location: string, message: string)
    requires Wf(s)
    ensures var r := Deliver(s, env, sev, category, timestamp, location, message); r.Ok? ==> Wf(r.sys)
  {
    var r := Deliver(s, env, sev, category, timestamp, location, message);
    if r.Ok? {
      var line := FileLine(timestamp, sev, category, message, location);
      var printed := s.(console := s.console + [ConsoleLine(sev, line)]);
      assert Wf(printed) by {
        forall n
          ensures OpenEntryOk(printed, n)
        {
          assert OpenEntryOk(s, n);
        }
      }
      WriteToKeepsWf(printed, s.log.defaultCategoryName, line);
      var written := WriteTo(printed, s.log.defaultCategoryName, line).sys;
      var signalled := written.(events := written.events + [Event(sev, line)]);
      assert Wf(signalled) by {
        forall n
          ensures OpenEntryOk(signalled, n)
        {
          assert OpenEntryOk(written, n);
        }
      }
      if !Reserved(category) {
        if Lookup(signalled.log.categories, category).Some? {
          WriteToKeepsWf(signalled, category, line);
        } else {
          OpenLogFileKeepsWf(signalled, env, category);
          var o := OpenLogFile(signalled, env, category);
          if o.ok {
            WriteToKeepsWf(o.sys, category, line);
          }
        }
      }
    }
  }

  /** A rollover step keeps the invariant, whatever the file system answers. */
  lemma {:induction false} RolloverStepKeepsWf(s: Sys, env: Env, key: string)
    requires Wf(s)
    ensures var r := RolloverStep(s, env, key); r.Ok? ==> Wf(r.sys)
  {
    var r := RolloverStep(s, env, key);
    if r.Ok? && Oversized(s, key) {
      var p := Lookup(s.log.categories, key).value.path;
      var t := RolloverTarget(s, key);
      assert OpenEntryOk(s, key);
      assert r == RollTo(s, env, key, p, t);
      forall n
        ensures PathOf(s.log, n) != t
      {
        RolledPathNotActive(s.log.fullLogFolder, key, n, AvailableIndex(Listing(s.fs, s.log.fullLogFolder), key));
      }
      RollToKeepsWf(s, env, key, p, t);
    }
  }

  lemma RollToKeepsWf(s: Sys, env: Env, key: string, p: string, t: string)
    requires Wf(s) && HoldsFile(s, key, p)
    requires forall n :: PathOf(s.log, n) != t
    ensures Wf(RollTo(s, env, key, p, t).sys)
  {
    var cleared := s.(fs := s.fs - {t});
    ClearTargetKeepsWf(s, t);
    if t in s.fs && t in env.removeFails {
      ReportKeepsWf(s, CouldNotDelete(t));
    } else if p !in cleared.fs {
      ReportKeepsWf(cleared, CouldNotRename(p));
    } else if p in env.renameFails {
      ReportKeepsWf(cleared, CouldNotRename(p));
      CloseKeepsWf(Report(cleared, CouldNotRename(p)), key, p);
    } else {
      RenameKeepsWf(s, env, key, p, t);
    }
  }

  /** Removing a path no category writes to keeps the invariant. */
  lemma ClearTargetKeepsWf(s: Sys, t: string)
    requires Wf(s)
    requires forall n :: PathOf(s.log, n) != t
    ensures Wf(s.(fs := s.fs - {t}))
  {
    var cleared := s.(fs := s.fs - {t});
    forall n
      ensures OpenEntryOk(cleared, n)
    {
      assert OpenEntryOk(s, n);
    }
  }

  lemma ReportKeepsWf(s: Sys, d: Diagnostic)
    requires Wf(s)
    ensures Wf(Report(s, d))
  {
    forall n
      ensures OpenEntryOk(Report(s, d), n)
    {
      assert OpenEntryOk(s, n);
    }
  }

  /** Closing the file of a live helper keeps the invariant. */
  lemma CloseKeepsWf(s: Sys, key: string, p: string)
    requires Wf(s) && HoldsFile(s, key, p)
    ensures Wf(WithCategories(s, Put(s.log.categories, key, Closed(p))))
  {
    var s' := WithCategories(s, Put(s.log.categories, key, Closed(p)));
    PutPreservesSorted(s.log.categories, key, Closed(p));
    assert OpenEntryOk(s, key);
    forall n
      ensures OpenEntryOk(s', n)
    {
      assert OpenEntryOk(s, n);
    }
  }

  /** A successful rename, the clean and the reopen keep the invariant. */
  lemma RenameKeepsWf(s: Sys, env: Env, key: string, p: string, t: string)
    requires Wf(s) && HoldsFile(s, key, p)
    requires forall n :: PathOf(s.log, n) != t
    requires t !in s.fs || t !in env.removeFails
    requires p in s.fs - {t} && p !in env.renameFails
    ensures Wf(RollTo(s, env, key, p, t).sys)
  {
    var cleared := s.(fs := s.fs - {t});
    var renamed := cleared.(fs := (cleared.fs - {p})[t := cleared.fs[p]]);
    var closed := WithCategories(renamed, Put(s.log.categories, key, Stale));
    RollToRenamed(s, env, key, p, t);
    RenamedCleanedWf(s, key, p, t);
    OpenLogFileKeepsWf(closed, env, key);
  }

  /** After the rename and the clean, before the reopen, the log is well formed. */
  lemma RenamedCleanedWf(s: Sys, key: string, p: string, t: string)
    requires Wf(s) && HoldsFile(s, key, p)
    requires forall n :: PathOf(s.log, n) != t
    requires p in s.fs - {t}
    ensures var cleared := s.(fs := s.fs - {t});
      var renamed := cleared.(fs := (cleared.fs - {p})[t := cleared.fs[p]]);
      Wf(WithCategories(renamed, Put(s.log.categories, key, Stale))) && s.log.isInitialized
  {
    var folder := s.log.fullLogFolder;
    var cleared := s.(fs := s.fs - {t});
    var renamed := cleared.(fs := (cleared.fs - {p})[t := cleared.fs[p]]);
    var closed := WithCategories(renamed, Put(s.log.categories, key, Stale));
    PutPreservesSorted(s.log.categories, key, Stale);
    assert OpenEntryOk(s, key);
    forall n
      ensures OpenEntryOk(closed, n)
    {
      if n != key {
        assert OpenEntryOk(s, n);
        if Lookup(s.log.categories, n).Some? && Live(Lookup(s.log.categories, n).value) && PathOf(s.log, n) == p {
          ActivePathInjective(folder, n, key);
        }
      }
    }
  }

  /** A roll whose rename succeeds ends with the reopen of key over the renamed files. */
  lemma RollToRenamed(s: Sys, env: Env, key: string, p: string, t: string)
    requires HoldsFile(s, key, p)
    requires t !in s.fs || t !in env.removeFails
    requires p in s.fs - {t} && p !in env.renameFails
    ensures var cleared := s.(fs := s.fs - {t});
      var renamed := cleared.(fs := (cleared.fs - {p})[t := cleared.fs[p]]);
      RollTo(s, env, key, p, t) == Ok(OpenLogFile(WithCategories(renamed, Put(s.log.categories, key, Stale)), env, key).sys)
  {
    var cleared := s.(fs := s.fs - {t});
    var renamed := cleared.(fs := (cleared.fs - {p})[t := cleared.fs[p]]);
    assert CleanCategory(renamed, key) == Ok(WithCategories(renamed, Put(s.log.categories, key, Stale)));
  }

  lemma {:induction false} PostLogKeysKeepsWf(keys: seq<string>, s: Sys, env: Env)
    requires Wf(s)
    ensures var r := PostLogKeys(keys, s, env); r.Ok? ==> Wf(r.sys)
    decreases |keys|
  {
    if |keys| > 0 {
      RolloverStepKeepsWf(s, env, keys[0]);
      var step := RolloverStep(s, env, keys[0]);
      if step.Ok? {
        PostLogKeysKeepsWf(keys[1..], step.sys, env);
      }
    }
  }

  /** handleMessage keeps the invariant, whatever the file system answers. */
  lemma HandleMessageKeepsWf(s: Sys, env: Env, sev: Severity, category: string, timestamp: string, location: string, message: string)
    requires Wf(s)
    ensures var r := HandleMessage(s, env, sev, category, timestamp, location, message); r.Ok? ==> Wf(r.sys)
  {
    if |message| > 0 && s.log.useLogs {
      DeliverKeepsWf(s, env, sev, category, timestamp, location, message);
      var d := Deliver(s, env, sev, category, timestamp, location, message);
      if d.Ok? {
        PostLogKeysKeepsWf(Keys(d.sys.log.categories), d.sys, env);
      }
    }
  }

  /**
   A repeated init changes neither the log folder, the registry, the files
   nor the initialized flag, but it does replace the default category
   name. When the new name has no file yet, the next enabled, non-empty
   message dereferences a null helper.
   */
  lemma InitAgainLosesDefault(s: Sys, env: Env, logPath: string, newName: string,
                              sev: Severity, category: string, timestamp: string, location: string, message: string)
    requires Wf(s) && s.log.isInitialized && s.log.useLogs
    requires |logPath| > 0 && |newName| > 0 && |message| > 0
    requires Lookup(s.log.categories, newName) == None
    ensures var r := Init(s, env, logPath, newName);
      && r.Ok?
      && r.sys.log.fullLogFolder == s.log.fullLogFolder
      && r.sys.log.categories == s.log.categories
      && r.sys.fs == s.fs
      && r.sys.log.defaultCategoryName == newName
      && HandleMessage(r.sys, env, sev, category, timestamp, location, message).Undefined?
  {
  }

  /**
   With init as documented, a repeated call leaves the state exactly as it
   was, so the messages that follow behave as if it had not been made.
   */
  lemma InitFirstCallWinsKeepsDelivery(s: Sys, env: Env, logPath: string, newName: string,
                                       sev: Severity, category: string, timestamp: string, location: string, message: string)
    requires s.log.isInitialized
    requires |logPath| > 0 && |newName| > 0
    ensures var r := InitFirstCallWins(s, env, logPath, newName);
      && r == Ok(s)
      && HandleMessage(r.sys, env, sev, category, timestamp, location, message) == HandleMessage(s, env, sev, category, timestamp, location, message)
  {
  }

  /** Delivering a message never leaves a name with a null or deleted helper. */
  lemma DeliverKeepsAllLive(s: Sys, env: Env, sev: Severity, category: string, timestamp: string, location: string, message: string)
    requires AllLive(s)
    ensures var r := Deliver(s, env, sev, category, timestamp, location, message); r.Ok? ==> AllLive(r.sys)
  {
    var line := FileLine(timestamp, sev, category, message, location);
    var printed := s.(console := s.console + [ConsoleLine(sev, line)]);
    var w := WriteTo(printed, s.log.defaultCategoryName, line);
    if w.Ok? {
      WriteToKeepsLog(printed, s.log.defaultCategoryName, line);
      var signalled := w.sys.(events := w.sys.events + [Event(sev, line)]);
      assert signalled.log.categories == s.log.categories;
      if !Reserved(category) {
        if Lookup(signalled.log.categories, category).Some? {
          WriteToKeepsLog(signalled, category, line);
        } else {
          OpenKeepsAllLive(signalled, env, category);
          var o := OpenLogFile(signalled, env, category);
          if o.ok {
            WriteToKeepsLog(o.sys, category, line);
          }
        }
      }
    }
  }

  lemma WriteToKeepsLog(s: Sys, name: string, line: string)
    ensures var r := WriteTo(s, name, line); r.Ok? ==> r.sys.log == s.log
  {
  }

  lemma OpenKeepsAllLive(s: Sys, env: Env, name: string)
    requires AllLive(s)
    ensures AllLive(OpenLogFile(s, env, name).sys)
  {
    var o := OpenLogFile(s, env, name);
    forall n | Lookup(o.sys.log.categories, n).Some?
      ensures Live(Lookup(o.sys.log.categories, n).value)
    {
      if n != name {
        assert Lookup(o.sys.log.categories, n) == Lookup(s.log.categories, n);
      }
    }
  }

  /**
   As written, a rollover whose rename succeeds but whose reopen fails
   leaves key holding the helper cleanCategory has just deleted, and the
   next enabled message for that category dereferences it: through the
   default file's stream when key is the default category, through the
   category's own stream otherwise.
   */
  lemma ReopenFailureBreaksNextMessage(s: Sys, env: Env, key: string, p: string, env': Env, sev: Severity, timestamp: string, location: string, message: string)
    requires Wf(s) && DefaultLive(s)
    requires HoldsFile(s, key, p)
    requires |ContentOf(s.fs, p)| > MaxFileSize
    requires var t := RolloverTarget(s, key); t !in s.fs || t !in env.removeFails
    requires RenameSucceeds(s.fs - {RolloverTarget(s, key)}, env, p, RolloverTarget(s, key))
    requires p in env.openFails
    requires s.log.useLogs && |message| > 0
    requires key == s.log.defaultCategoryName || !Reserved(key)
    ensures var r := RolloverStep(s, env, key);
      && r.Ok?
      && Lookup(r.sys.log.categories, key) == Some(Stale)
      && HandleMessage(r.sys, env', sev, key, timestamp, location, message).Undefined?
  {
    assert OpenEntryOk(s, key);
    RolloverSucceeds(s, env, key, p);
    var r := RolloverStep(s, env, key);
    if key != s.log.defaultCategoryName {
      assert Lookup(r.sys.log.categories, s.log.defaultCategoryName) == Lookup(s.log.categories, s.log.defaultCategoryName);
    }
    StaleBreaksNextMessage(r.sys, key, env', sev, timestamp, location, message);
  }

  /**
   A message for a category whose key holds a deleted helper is undefined
   when that key is the default category, or when the default helper is
   live and the category is not one of the reserved names.
   */
  lemma StaleBreaksNextMessage(s: Sys, key: string, env: Env, sev: Severity, timestamp: string, location: string, message: string)
    requires Lookup(s.log.categories, key) == Some(Stale)
    requires s.log.useLogs && |message| > 0
    requires key == s.log.defaultCategoryName || (!Reserved(key) && DefaultLive(s))
    ensures HandleMessage(s, env, sev, key, timestamp, location, message).Undefined?
  {
  }

  /**
   With the failed reopen mended, rolling any category other than the
   default one keeps the log usable: from a well-formed state whose
   helpers are all live, the next message, for any category and whatever
   the file system answers, returns normally.
   */
  lemma ErasingKeepsNextMessage(s: Sys, env: Env, key: string, env': Env, sev: Severity, category: string, timestamp: string, location: string, message: string)
    requires Wf(s) && AllLive(s) && DefaultLive(s)
    requires Lookup(s.log.categories, key).Some?
    requires key != s.log.defaultCategoryName
    ensures var r := RolloverStepErasing(s, env, key);
      && r.Ok?
      && HandleMessage(r.sys, env', sev, category, timestamp, location, message).Ok?
  {
    ErasingKeepsLive(s, env, key);
    LiveNextMessageOk(RolloverStepErasing(s, env, key).sys, env', sev, category, timestamp, location, message);
  }

  /** The mended step of a category other than the default one leaves every helper live. */
  lemma ErasingKeepsLive(s: Sys, env: Env, key: string)
    requires Wf(s) && AllLive(s) && DefaultLive(s)
    requires Lookup(s.log.categories, key).Some?
    requires key != s.log.defaultCategoryName
    ensures var r := RolloverStepErasing(s, env, key);
      r.Ok? && Wf(r.sys) && AllLive(r.sys) && DefaultLive(r.sys)
  {
    var r := RolloverStepErasing(s, env, key);
    ErasingKeepsWf(s, env, key);
    assert Lookup(r.sys.log.categories, s.log.defaultCategoryName) == Lookup(s.log.categories, s.log.defaultCategoryName);
  }

  /** From a well-formed state whose helpers are all live, including the default one, any message returns normally. */
  lemma LiveNextMessageOk(s: Sys, env: Env, sev: Severity, category: string, timestamp: string, location: string, message: string)
    requires Wf(s) && AllLive(s) && DefaultLive(s)
    ensures HandleMessage(s, env, sev, category, timestamp, location, message).Ok?
  {
    if |message| > 0 && s.log.useLogs {
      var d := Deliver(s, env, sev, category, timestamp, location, message);
      assert d.Ok?;
      DeliverKeepsWf(s, env, sev, category, timestamp, location, message);
      DeliverKeepsAllLive(s, env, sev, category, timestamp, location, message);
      PostLogLiveOk(d.sys, env);
    }
  }

  /** The mended step keeps the log well formed. */
  lemma ErasingKeepsWf(s: Sys, env: Env, key: string)
    requires Wf(s)
    ensures var r := RolloverStepErasing(s, env, key); r.Ok? ==> Wf(r.sys)
  {
    var step := RolloverStep(s, env, key);
    RolloverStepKeepsWf(s, env, key);
    if step.Ok? && Lookup(step.sys.log.categories, key) == Some(Stale) {
      var r := RolloverStepErasing(s, env, key).sys;
      RemovePreservesSorted(step.sys.log.categories, key);
      forall n
        ensures OpenEntryOk(r, n)
      {
        assert OpenEntryOk(step.sys, n);
      }
    }
  }
}

=== FILE: logger.dfy ===
/**
 The state of the Log singleton and its lifecycle operations: init,
 openLogFile, cleanCategory and setUseLogs. Every operation is a pure
 function from the state before the call to the outcome after it. What
 the file system answers (whether a file opens, a folder is created, a
 file is removed or renamed) comes in through an Env.
 */
module Logger {
  import opened Options
  import opened Text
  import opened Format
  import opened Registry
  import opened Files

  /** MAX_FILE_SIZE: a category file strictly larger than this is rolled over. */
  const MaxFileSize: nat := 2 * 500 * 1024

  /** The fields of a Log object. */
  datatype Log = Log(
    categories: Registry,
    isInitialized: bool,
    fullLogFolder: string,
    defaultCategoryName: string,
    useLogs: bool)

  /** A logMessageReceived signal. */
  datatype Event = Event(severity: Severity, line: string)

  /** The qCritical reports the component issues about its own files. */
  datatype Diagnostic =
    | CouldNotOpen(name: string)
    | CouldNotRename(path: string)
    | CouldNotDelete(path: string)

  /** The log object together with what it has produced: files, console lines, signals, reports. */
  datatype Sys = Sys(
    log: Log,
    fs: FileSystem,
    console: seq<string>,
    events: seq<Event>,
    diagnostics: seq<Diagnostic>)

  /** The paths on which the file system refuses each operation. */
  datatype Env = Env(
    openFails: set<string>,
    mkpathFails: set<string>,
    removeFails: set<string>,
    renameFails: set<string>)

  datatype Outcome =
    | Ok(sys: Sys)
    /** std::invalid_argument thrown to the caller. */
    | InvalidArgument(reason: string)
    /** qFatal: the process is terminated. */
    | Terminated(reason: string)
    /** The source dereferences a null or already deleted CategoryHelper. */
    | Undefined(reason: string)

  /** The state right after Log's constructor, over an existing file system. */
  function Constructed(fs: FileSystem): (s: Sys)
    ensures !s.log.isInitialized && s.log.useLogs && s.log.categories == []
  {
    Sys(Log([], false, ".", "", true), fs, [], [], [])
  }

  /** The file a category of this log writes to. */
  function PathOf(log: Log, name: string): string {
    ActivePath(log.fullLogFolder, name)
  }

  function WithCategories(s: Sys, r: Registry): Sys {
    s.(log := s.log.(categories := r))
  }

  function Report(s: Sys, d: Diagnostic): Sys {
    s.(diagnostics := s.diagnostics + [d])
  }

  datatype Opened = Opened(ok: bool, sys: Sys)

  /**
   openLogFile: opens `<folder>/<name>.log` in append mode, creating it
   when missing and keeping any content it has, and registers it under
   name, replacing whatever name held. On failure it reports and leaves
   the registry and the files alone.
   */
  function OpenLogFile(s: Sys, env: Env, name: string): (o: Opened)
    ensures o.ok <==> PathOf(s.log, name) !in env.openFails
    ensures o.ok ==> Lookup(o.sys.log.categories, name) == Some(Open(PathOf(s.log, name)))
    ensures o.ok ==> PathOf(s.log, name) in o.sys.fs
    ensures o.ok ==> forall n :: n != name ==> Lookup(o.sys.log.categories, n) == Lookup(s.log.categories, n)
    ensures o.ok ==> o.sys.diagnostics == s.diagnostics
    ensures !o.ok ==> o.sys == Report(s, CouldNotOpen(name))
    ensures forall p :: ContentOf(o.sys.fs, p) == ContentOf(s.fs, p)
    ensures o.sys.fs.Keys == s.fs.Keys + (if o.ok then {PathOf(s.log, name)} else {})
    ensures o.sys.log.(categories := s.log.categories) == s.log
    ensures o.sys.console == s.console && o.sys.events == s.events
  {
    var path := PathOf(s.log, name);
    if path in env.openFails then Opened(false, Report(s, CouldNotOpen(name)))
    else
      var fs' := s.fs[path := ContentOf(s.fs, path)];
      Opened(true, WithCategories(s.(fs := fs'), Put(s.log.categories, name, Open(path))))
  }

  /**
   cleanCategory: closes and deletes the CategoryHelper of name. The map
   keeps the now dangling pointer, and a name it did not hold gains a null
   entry; deleting an already deleted helper is undefined.
   */
  function CleanCategory(s: Sys, name: string): (r: Outcome)
    ensures r.Ok? <==> Lookup(s.log.categories, name) != Some(Stale)
    ensures r.Ok? ==> Lookup(r.sys.log.categories, name) == Released(Lookup(s.log.categories, name))
    ensures r.Ok? ==> forall n :: n != name ==> Lookup(r.sys.log.categories, n) == Lookup(s.log.categories, n)
    ensures r.Ok? ==> r.sys == WithCategories(s, r.sys.log.categories)
  {
    match Lookup(s.log.categories, name)
    case None => Ok(WithCategories(s, Put(s.log.categories, name, Null)))
    case Some(Null) => Ok(s)
    case Some(Stale) => Undefined("cleanCategory deletes a CategoryHelper twice")
    case Some(_) => Ok(WithCategories(s, Put(s.log.categories, name, Stale)))
  }

  /**
   What the map holds for a name after cleanCategory: a dangling pointer
   where a helper was live, a null pointer otherwise.
   */
  function Released(e: Option<Entry>): Option<Entry> {
    if e.Some? && Live(e.value) then Some(Stale) else Some(Null)
  }

  /**
   The destructor's loop: cleanCategory on each key in turn. It changes no
   file and no field of the log other than its map, and it either returns
   normally or deletes a helper twice.
   */
  function CleanKeys(keys: seq<string>, s: Sys): (r: Outcome)
    ensures r.Ok? || r.Undefined?
    ensures r.Ok? ==> r.sys.fs == s.fs && r.sys.log.(categories := s.log.categories) == s.log
    ensures r.Ok? ==> r.sys.console == s.console && r.sys.events == s.events && r.sys.diagnostics == s.diagnostics
    decreases |keys|
  {
    if |keys| == 0 then Ok(s)
    else
      match CleanCategory(s, keys[0])
      case Ok(s') => CleanKeys(keys[1..], s')
      case other => other
  }

  /** ~Log: releases every registered category, in the map's order, and touches no file. */
  function Destroy(s: Sys): (r: Outcome)
    ensures r.Ok? || r.Undefined?
    ensures r.Ok? ==> r.sys.fs == s.fs && r.sys.log.(categories := s.log.categories) == s.log
    ensures r.Ok? ==> r.sys.console == s.console && r.sys.events == s.events && r.sys.diagnostics == s.diagnostics
  {
    CleanKeys(Keys(s.log.categories), s)
  }

  /**
   Cleaning distinct keys succeeds exactly when none of them holds an
   already deleted helper; then every one is released, and nothing else
   (no other name, no file, no other field) changes.
   */
  lemma {:induction false} CleanKeysReleases(keys: seq<string>, s: Sys)
    requires forall i, j :: 0 <= i < j < |keys| ==> keys[i] != keys[j]
    ensures var r := CleanKeys(keys, s);
      && (r.Ok? <==> forall k :: k in keys ==> Lookup(s.log.categories, k) != Some(Stale))
      && (r.Ok? ==> forall k :: k in keys ==> Lookup(r.sys.log.categories, k) == Released(Lookup(s.log.categories, k)))
      && (r.Ok? ==> forall n :: n !in keys ==> Lookup(r.sys.log.categories, n) == Lookup(s.log.categories, n))
      && (r.Ok? ==> r.sys == WithCategories(s, r.sys.log.categories))
    decreases |keys|
  {
    if |keys| > 0 {
      var k0 := keys[0];
      var step := CleanCategory(s, k0);
      if step.Ok? {
        var rest := keys[1..];
        assert forall k :: k in rest ==> k != k0 by {
          forall k | k in rest
            ensures k != k0
          {
            var i :| 0 <= i < |rest| && rest[i] == k;
            assert keys[i + 1] == k;
          }
        }
        CleanKeysReleases(rest, step.sys);
        assert forall k :: k in keys <==> k == k0 || k in rest;
      } else {
        assert k0 in keys;
      }
    }
  }

  /**
   The destructor succeeds exactly when no category holds an already
   deleted helper (one left behind by a rollover whose reopen failed); it
   then closes every open file, leaves null entries null and touches no
   file's content.
   */
  lemma DestroyReleasesAll(s: Sys)
    requires Sorted(s.log.categories)
    ensures var reg := s.log.categories; var r := Destroy(s);
      && (r.Ok? <==> forall i :: 0 <= i < |reg| ==> !reg[i].entry.Stale?)
      && (r.Ok? ==> forall i :: 0 <= i < |reg| ==>
            Lookup(r.sys.log.categories, reg[i].name) == (if Live(reg[i].entry) then Some(Stale) else Some(Null)))
      && (r.Ok? ==> r.sys.fs == s.fs)
  {
    DestroyOkIff(s);
    if Destroy(s).Ok? {
      DestroyReleasesEach(s);
    }
  }

  lemma DestroyOkIff(s: Sys)
    requires Sorted(s.log.categories)
    ensures var reg := s.log.categories;
      Destroy(s).Ok? <==> forall i :: 0 <= i < |reg| ==> !reg[i].entry.Stale?
  {
    var reg := s.log.categories;
    var keys := Keys(reg);
    KeysDistinct(reg);
    CleanKeysReleases(keys, s);
    SlotsLookup(reg);
    if forall i :: 0 <= i < |reg| ==> !reg[i].entry.Stale? {
      forall k | k in keys
        ensures Lookup(reg, k) != Some(Stale)
      {
        var i :| 0 <= i < |keys| && keys[i] == k;
      }
    } else {
      var i :| 0 <= i < |reg| && reg[i].entry.Stale?;
      assert keys[i] in keys;
    }
  }

  lemma DestroyReleasesEach(s: Sys)
    requires Sorted(s.log.categories) && Destroy(s).Ok?
    ensures var reg := s.log.categories; forall i :: 0 <= i < |reg| ==>
      Lookup(Destroy(s).sys.log.categories, reg[i].name) == (if Live(reg[i].entry) then Some(Stale) else Some(Null))
  {
    var reg := s.log.categories;
    var keys := Keys(reg);
    KeysDistinct(reg);
    CleanKeysReleases(keys, s);
    SlotsLookup(reg);
    forall i | 0 <= i < |reg|
      ensures Lookup(Destroy(s).sys.log.categories, reg[i].name) == (if Live(reg[i].entry) then Some(Stale) else Some(Null))
    {
      assert keys[i] in keys;
    }
  }

  lemma KeysDistinct(reg: Registry)
    requires Sorted(reg)
    ensures forall i, j :: 0 <= i < j < |Keys(reg)| ==> Keys(reg)[i] != Keys(reg)[j]
  {
    OneEntryPerName(reg);
  }

  lemma SlotsLookup(reg: Registry)
    requires Sorted(reg)
    ensures forall i :: 0 <= i < |reg| ==> Lookup(reg, Keys(reg)[i]) == Some(reg[i].entry)
  {
    forall i | 0 <= i < |reg|
      ensures Lookup(reg, Keys(reg)[i]) == Some(reg[i].entry)
    {
      LookupSlot(reg, i);
    }
  }

  /** setUseLogs: flips the enable switch and nothing else; no file is closed. */
  function SetUseLogs(s: Sys, use: bool): (r: Sys)
    ensures r.log.useLogs == use
    ensures r.log.(useLogs := s.log.useLogs) == s.log
    ensures r.(log := s.log) == s
  {
    s.(log := s.log.(useLogs := use))
  }

  /**
   init as written: rejects an empty path or name, then stores the default
   category name even when already initialized. A first call creates the
   folder, opens the default category's file and marks the log
   initialized, or terminates the process when either step fails.
   */
  function Init(s: Sys, env: Env, logPath: string, defaultLogName: string): (r: Outcome)
    ensures |logPath| == 0 || |defaultLogName| == 0 <==> r.InvalidArgument?
    ensures !r.Undefined?
    ensures r.Ok? <==>
      (|logPath| > 0 && |defaultLogName| > 0 &&
       (s.log.isInitialized || (logPath !in env.mkpathFails && ActivePath(logPath, defaultLogName) !in env.openFails)))
    ensures r.Ok? ==> r.sys.log.isInitialized && r.sys.log.defaultCategoryName == defaultLogName
    ensures r.Ok? && s.log.isInitialized ==> r.sys == s.(log := s.log.(defaultCategoryName := defaultLogName))
    ensures r.Ok? && !s.log.isInitialized ==>
      && r.sys.log.fullLogFolder == logPath
      && Lookup(r.sys.log.categories, defaultLogName) == Some(Open(ActivePath(logPath, defaultLogName)))
    ensures r.Terminated? <==>
      (!r.InvalidArgument? && !s.log.isInitialized &&
       (logPath in env.mkpathFails || ActivePath(logPath, defaultLogName) in env.openFails))
  {
    if |logPath| == 0 then InvalidArgument("Invalid log path provided")
    else if |defaultLogName| == 0 then InvalidArgument("Invalid log name provided for the default log file")
    else
      var named := s.(log := s.log.(defaultCategoryName := defaultLogName));
      if s.log.isInitialized then Ok(named)
      else
        var placed := named.(log := named.log.(fullLogFolder := logPath));
        if logPath in env.mkpathFails then Terminated("Could not create log folder or could not open default log file")
        else
          var o := OpenLogFile(placed, env, defaultLogName);
          if !o.ok then Terminated("Could not create log folder or could not open default log file")
          else Ok(o.sys.(log := o.sys.log.(isInitialized := true)))
  }

  /**
   init as its documentation promises: once initialized, further calls
   change nothing at all.
   */
  function InitFirstCallWins(s: Sys, env: Env, logPath: string, defaultLogName: string): (r: Outcome)
    ensures |logPath| == 0 || |defaultLogName| == 0 <==> r.InvalidArgument?
    ensures !r.Undefined?
    ensures s.log.isInitialized && !r.InvalidArgument? ==> r == Ok(s)
    ensures !s.log.isInitialized ==> r == Init(s, env, logPath, defaultLogName)
  {
    if s.log.isInitialized && |logPath| > 0 && |defaultLogName| > 0 then Ok(s)
    else Init(s, env, logPath, defaultLogName)
  }
}

=== FILE: options.dfy ===
/** An optional value, used where the source signals "no result" by a flag or a null pointer. */
module Options {

  datatype Option<+T> = None | Some(value: T)
}

=== FILE: registry.dfy ===
/**
 The category registry: the map from category name to the helper that
 owns the category's file and stream.
 A QMap keeps its keys in ascending order and iterates in that order, so
 it is modelled as a sequence of slots kept strictly sorted by name; the
 ordering is what makes the map hold at most one entry per name.
 */
module Registry {
  import opened Options
  import opened Text

  /** What the map holds for a category. */
  datatype Entry =
    /** A live CategoryHelper whose file is open on path. */
    | Open(path: string)
    /**
     A live CategoryHelper whose file a failed rename has closed: lines
     written through it are lost, but its size is still read from path.
     */
    | Closed(path: string)
    /** A pointer to a CategoryHelper that cleanCategory has already deleted. */
    | Stale
    /** The nullptr that QMap::operator[] inserts for a name it did not hold. */
    | Null

  /** The entry points at a CategoryHelper that has not been deleted. */
  predicate Live(e: Entry) {
    e.Open? || e.Closed?
  }

  datatype Slot = Slot(name: string, entry: Entry)

  type Registry = seq<Slot>

  predicate Sorted(r: Registry) {
    forall i, j :: 0 <= i < j < |r| ==> Less(r[i].name, r[j].name)
  }

  function Names(r: Registry): set<string> {
    set i | 0 <= i < |r| :: r[i].name
  }

  /** The names in iteration order. */
  function Keys(r: Registry): (ks: seq<string>)
    ensures |ks| == |r|
    ensures forall i :: 0 <= i < |r| ==> ks[i] == r[i].name
  {
    if |r| == 0 then [] else [r[0].name] + Keys(r[1..])
  }

  /** QMap::value / contains: the entry held for name, if any. */
  function Lookup(r: Registry, name: string): (e: Option<Entry>)
    ensures e.None? ==> name !in Names(r)
    ensures e.Some? ==> exists i :: 0 <= i < |r| && r[i] == Slot(name, e.value)
  {
    if |r| == 0 then None
    else if r[0].name == name then Some(r[0].entry)
    else
      var rest := Lookup(r[1..], name);
      assert rest.Some? ==> exists i :: 1 <= i < |r| && r[i] == Slot(name, rest.value);
      rest
  }

  /**
   `categories[name] = e`: replaces the entry of an existing name in place,
   or inserts a new slot where the ordering puts it.
   */
  function Put(r: Registry, name: string, e: Entry): (r': Registry)
    ensures Lookup(r', name) == Some(e)
    ensures forall n :: n != name ==> Lookup(r', n) == Lookup(r, n)
    ensures Names(r') == Names(r) + {name}
    ensures forall i :: 0 <= i < |r'| ==> r'[i] == Slot(name, e) || r'[i] in r
  {
    if |r| == 0 then [Slot(name, e)]
    else if r[0].name == name then
      NamesCons(r[0], r[1..]);
      assert [r[0]] + r[1..] == r;
      NamesCons(Slot(name, e), r[1..]);
      [Slot(name, e)] + r[1..]
    else if Less(r[0].name, name) then
      var rest := Put(r[1..], name, e);
      NamesCons(r[0], r[1..]);
      assert [r[0]] + r[1..] == r;
      NamesCons(r[0], rest);
      [r[0]] + rest
    else
      NamesCons(Slot(name, e), r);
      [Slot(name, e)] + r
  }

  lemma NamesCons(s: Slot, r: Registry)
    ensures Names([s] + r) == {s.name} + Names(r)
  {
    var r' := [s] + r;
    forall n | n in Names(r')
      ensures n in {s.name} + Names(r)
    {
      var i :| 0 <= i < |r'| && r'[i].name == n;
      if i > 0 {
        assert r[i - 1].name == n;
      }
    }
    forall n | n in Names(r)
      ensures n in Names(r')
    {
      var i :| 0 <= i < |r| && r[i].name == n;
      assert r'[i + 1].name == n;
    }
    assert r'[0].name == s.name;
  }

  /** Put keeps the registry sorted, so it never creates a second slot for a name. */
  lemma {:induction false} PutPreservesSorted(r: Registry, name: string, e: Entry)
    requires Sorted(r)
    ensures Sorted(Put(r, name, e))
  {
    if |r| == 0 {
      ConsSorted(Slot(name, e), []);
    } else if r[0].name == name {
      TailSorted(r);
      ConsSorted(Slot(name, e), r[1..]);
    } else if Less(r[0].name, name) {
      TailSorted(r);
      PutPreservesSorted(r[1..], name, e);
      HeadBeforePut(r, name, e);
      assert Put(r, name, e) == [r[0]] + Put(r[1..], name, e);
      ConsSorted(r[0], Put(r[1..], name, e));
    } else {
      LessTotal(r[0].name, name);
      forall j | 0 <= j < |r|
        ensures Less(name, r[j].name)
      {
        if j > 0 {
          LessTransitive(name, r[0].name, r[j].name);
        }
      }
      ConsSorted(Slot(name, e), r);
    }
  }

  /** The head of a sorted registry stays before everything Put leaves in its tail. */
  lemma HeadBeforePut(r: Registry, name: string, e: Entry)
    requires Sorted(r) && |r| > 0 && Less(r[0].name, name)
    ensures forall j :: 0 <= j < |Put(r[1..], name, e)| ==> Less(r[0].name, Put(r[1..], name, e)[j].name)
  {
  }

  lemma TailSorted(r: Registry)
    requires Sorted(r) && |r| > 0
    ensures Sorted(r[1..])
  {
  }

  /** A slot ordered before every slot of a sorted registry can be put in front of it. */
  lemma ConsSorted(s: Slot, r: Registry)
    requires Sorted(r)
    requires forall j :: 0 <= j < |r| ==> Less(s.name, r[j].name)
    ensures Sorted([s] + r)
  {
  }

  /** Storing into a name the sorted registry already holds leaves the key order as it was. */
  lemma {:induction false} PutExistingKeepsKeys(r: Registry, name: string, e: Entry)
    requires Sorted(r) && name in Names(r)
    ensures Keys(Put(r, name, e)) == Keys(r)
  {
    if r[0].name != name {
      var k :| 0 <= k < |r| && r[k].name == name;
      assert k > 0;
      assert Less(r[0].name, name);
      assert r[1..][k - 1].name == name;
      PutExistingKeepsKeys(r[1..], name, e);
    }
  }

  /** QMap::remove: name leaves the map and every other name keeps its entry. */
  function Remove(r: Registry, name: string): (r': Registry)
    ensures Lookup(r', name) == None
    ensures forall n :: n != name ==> Lookup(r', n) == Lookup(r, n)
    ensures forall i :: 0 <= i < |r'| ==> r'[i] in r
  {
    if |r| == 0 then []
    else if r[0].name == name then Remove(r[1..], name)
    else
      var rest := Remove(r[1..], name);
      assert forall i :: 0 <= i < |rest| ==> rest[i] in r;
      [r[0]] + rest
  }

  /** Removing a name keeps the registry in key order. */
  lemma {:induction false} RemovePreservesSorted(r: Registry, name: string)
    requires Sorted(r)
    ensures Sorted(Remove(r, name))
  {
    if |r| > 0 {
      TailSorted(r);
      RemovePreservesSorted(r[1..], name);
      if r[0].name != name {
        var rest := Remove(r[1..], name);
        forall j | 0 <= j < |rest|
          ensures Less(r[0].name, rest[j].name)
        {
          var k :| 0 <= k < |r[1..]| && r[1..][k] == rest[j];
          assert r[k + 1] == rest[j];
        }
        ConsSorted(r[0], rest);
      }
    }
  }

  /** A sorted registry holds at most one slot per category name. */
  lemma OneEntryPerName(r: Registry)
    requires Sorted(r)
    ensures forall i, j :: 0 <= i < |r| && 0 <= j < |r| && r[i].name == r[j].name ==> i == j
  {
    forall i, j | 0 <= i < |r| && 0 <= j < |r| && r[i].name == r[j].name
      ensures i == j
    {
      LessIrreflexive(r[i].name);
    }
  }

  /** In a sorted registry, looking a slot's name up finds that slot's entry. */
  lemma LookupSlot(r: Registry, i: nat)
    requires Sorted(r) && i < |r|
    ensures Lookup(r, r[i].name) == Some(r[i].entry)
  {
    OneEntryPerName(r);
  }
}

=== FILE: rollover.dfy ===
/**
 Log::postLog: after every message, each registered category whose file
 has grown past MaxFileSize is renamed to `<folder>/<key>.log.<idx>` and
 a fresh file is opened under the original name. A rolled target that
 already exists is removed first; when the removal or the rename fails,
 the category keeps writing to its oversized file.
 */
module Rollover {
  import opened Options
  import opened Text
  import opened RolloverIndex
  import opened Registry
  import opened Files
  import opened Logger

  /**
   The path the oversized file of key is renamed to: a rolled file of key
   in the log folder, with an index in 1..MaxFileIndex, and never any
   category's active file.
   */
  function RolloverTarget(s: Sys, key: string): (t: string)
    ensures exists idx :: 1 <= idx <= MaxFileIndex && t == RolledPath(s.log.fullLogFolder, key, idx)
    ensures forall n :: t != PathOf(s.log, n)
  {
    var folder := s.log.fullLogFolder;
    var idx := AvailableIndex(Listing(s.fs, folder), key);
    RolledNeverActive(folder, key, idx);
    RolledPath(folder, key, idx)
  }

  lemma RolledNeverActive(folder: string, key: string, idx: nat)
    ensures forall n :: RolledPath(folder, key, idx) != ActivePath(folder, n)
  {
    forall n
      ensures RolledPath(folder, key, idx) != ActivePath(folder, n)
    {
      RolledPathNotActive(folder, key, n, idx);
    }
  }

  /**
   True when key holds a live helper whose file is strictly larger than
   MaxFileSize. The size is read from the file by name, so it is read
   for a closed file too.
   */
  predicate Oversized(s: Sys, key: string) {
    match Lookup(s.log.categories, key)
    case Some(e) => Live(e) && |ContentOf(s.fs, e.path)| > MaxFileSize
    case None => false
  }

  /** Key's helper is live and its file is path p, open or closed. */
  predicate HoldsFile(s: Sys, key: string, p: string) {
    Lookup(s.log.categories, key) == Some(Open(p)) || Lookup(s.log.categories, key) == Some(Closed(p))
  }

  /**
   QFile::rename refuses, leaving the file as it was, when the source is
   gone or the target exists. Otherwise it closes the file and then either
   moves it or, when the file system refuses, fails with the file closed.
   */
  predicate RenameSucceeds(fs: FileSystem, env: Env, from: string, to: string) {
    from in fs && to !in fs && from !in env.renameFails
  }

  /**
   Moves the file p of key to target: removes an existing target first,
   renames, then deletes the helper and opens a new file under the
   original name. A rename the file system refuses leaves the helper with
   its file closed.
   */
  function RollTo(s: Sys, env: Env, key: string, p: string, target: string): (r: Outcome)
    requires HoldsFile(s, key, p)
    ensures r.Ok?
    ensures r.sys.console == s.console && r.sys.events == s.events
    ensures r.sys.log.(categories := s.log.categories) == s.log
    ensures forall n :: n != key ==> Lookup(r.sys.log.categories, n) == Lookup(s.log.categories, n)
    ensures Lookup(r.sys.log.categories, key) == Some(Stale) ==> PathOf(s.log, key) in env.openFails
    ensures Lookup(r.sys.log.categories, key).Some?
    ensures Lookup(r.sys.log.categories, key).value != Null
  {
    if target in s.fs && target in env.removeFails then Ok(Report(s, CouldNotDelete(target)))
    else
      var cleared := s.(fs := s.fs - {target});
      if p !in cleared.fs then Ok(Report(cleared, CouldNotRename(p)))
      else if p in env.renameFails then
        Ok(WithCategories(Report(cleared, CouldNotRename(p)), Put(s.log.categories, key, Closed(p))))
      else
        var renamed := cleared.(fs := (cleared.fs - {p})[target := cleared.fs[p]]);
        match CleanCategory(renamed, key)
        case Ok(closed) => Ok(OpenLogFile(closed, env, key).sys)
        case other => other
  }

  /** The body of postLog's loop for one key. */
  function RolloverStep(s: Sys, env: Env, key: string): (r: Outcome)
    ensures r.Ok? <==> Lookup(s.log.categories, key).Some? && Live(Lookup(s.log.categories, key).value)
    ensures r.Ok? && !Oversized(s, key) ==> r.sys == s
    ensures r.Ok? ==> r.sys.console == s.console && r.sys.events == s.events
    ensures r.Ok? ==> r.sys.log.(categories := s.log.categories) == s.log
    ensures r.Ok? ==> forall n :: n != key ==> Lookup(r.sys.log.categories, n) == Lookup(s.log.categories, n)
    ensures r.Ok? ==> Lookup(r.sys.log.categories, key).Some? && Lookup(r.sys.log.categories, key).value != Null
    ensures r.Ok? && Lookup(r.sys.log.categories, key) == Some(Stale) ==> PathOf(s.log, key) in env.openFails
    ensures !r.Ok? ==> r.Undefined?
  {
    match Lookup(s.log.categories, key)
    case Some(e) =>
      if !Live(e) then Undefined("postLog reads a file size through a null or deleted CategoryHelper")
      else if |ContentOf(s.fs, e.path)| <= MaxFileSize then Ok(s)
      else RollTo(s, env, key, e.path, RolloverTarget(s, key))
    case None => Undefined("postLog reads a file size through a null CategoryHelper")
  }

  /**
   postLog's loop over the keys, in the map's order. It never prints,
   signals or changes a field of the log other than its map, and it
   either returns normally or hits a null or deleted helper.
   */
  function PostLogKeys(keys: seq<string>, s: Sys, env: Env): (r: Outcome)
    ensures r.Ok? || r.Undefined?
    ensures r.Ok? ==> r.sys.console == s.console && r.sys.events == s.events
    ensures r.Ok? ==> r.sys.log.(categories := s.log.categories) == s.log
    ensures r.Ok? ==> forall n :: n !in keys ==> Lookup(r.sys.log.categories, n) == Lookup(s.log.categories, n)
    decreases |keys|
  {
    if |keys| == 0 then Ok(s)
    else
      match RolloverStep(s, env, keys[0])
      case Ok(s') => PostLogKeys(keys[1..], s', env)
      case other => other
  }

  /** postLog: one rollover pass over every registered category. */
  function PostLog(s: Sys, env: Env): (r: Outcome)
    ensures r.Ok? || r.Undefined?
    ensures r.Ok? ==> r.sys.console == s.console && r.sys.events == s.events
    ensures r.Ok? ==> r.sys.log.(categories := s.log.categories) == s.log
  {
    PostLogKeys(Keys(s.log.categories), s, env)
  }

  /** Every name the map holds has a live helper. */
  ghost predicate AllLive(s: Sys) {
    forall n :: Lookup(s.log.categories, n).Some? ==> Live(Lookup(s.log.categories, n).value)
  }

  /**
   A pass over distinct keys that all hold live helpers returns normally:
   each step touches only its own key, so the later keys are still live
   when their turn comes.
   */
  lemma {:induction false} PostLogKeysLiveOk(keys: seq<string>, s: Sys, env: Env)
    requires forall i, j :: 0 <= i < j < |keys| ==> keys[i] != keys[j]
    requires forall k :: k in keys ==> Lookup(s.log.categories, k).Some? && Live(Lookup(s.log.categories, k).value)
    ensures PostLogKeys(keys, s, env).Ok?
  {
    if |keys| > 0 {
      assert keys[0] in keys;
      var s' := RolloverStep(s, env, keys[0]).sys;
      forall k | k in keys[1..]
        ensures Lookup(s'.log.categories, k).Some? && Live(Lookup(s'.log.categories, k).value)
      {
        var j :| 0 <= j < |keys[1..]| && keys[1..][j] == k;
        assert keys[j + 1] == k;
        assert k in keys;
      }
      PostLogKeysLiveOk(keys[1..], s', env);
    }
  }

  /** postLog over a map whose helpers are all live returns normally. */
  lemma PostLogLiveOk(s: Sys, env: Env)
    requires Sorted(s.log.categories) && AllLive(s)
    ensures PostLog(s, env).Ok?
  {
    var reg := s.log.categories;
    OneEntryPerName(reg);
    forall k | k in Keys(reg)
      ensures Lookup(reg, k).Some? && Live(Lookup(reg, k).value)
    {
      var i :| 0 <= i < |reg| && Keys(reg)[i] == k;
      LookupSlot(reg, i);
    }
    PostLogKeysLiveOk(Keys(reg), s, env);
  }

  /**
   The rollover step with a failed reopen mended: where the code leaves
   key holding the helper it has just deleted, the key leaves the map
   instead, so that the next message for the category opens its file
   afresh. Everything else is the step as written.
   */
  function RolloverStepErasing(s: Sys, env: Env, key: string): (r: Outcome)
    ensures r.Ok? <==> RolloverStep(s, env, key).Ok?
    ensures r.Ok? ==> Lookup(r.sys.log.categories, key).None? || Live(Lookup(r.sys.log.categories, key).value)
    ensures r.Ok? && Lookup(r.sys.log.categories, key).None? ==> PathOf(s.log, key) in env.openFails
    ensures r.Ok? ==> forall n :: n != key ==> Lookup(r.sys.log.categories, n) == Lookup(s.log.categories, n)
    ensures r.Ok? ==> r.sys.log.(categories := s.log.categories) == s.log
  {
    match RolloverStep(s, env, key)
    case Ok(s') =>
      if Lookup(s'.log.categories, key) == Some(Stale) then Ok(WithCategories(s', Remove(s'.log.categories, key)))
      else Ok(s')
    case other => other
  }

  /**
   A category whose file is not past MaxFileSize is left exactly as it was;
   rollover starts only strictly above 1,024,000 characters.
   */
  lemma RolloverOnlyOversized(s: Sys, env: Env, key: string, p: string)
    requires HoldsFile(s, key, p)
    requires |ContentOf(s.fs, p)| <= MaxFileSize
    ensures RolloverStep(s, env, key) == Ok(s)
  {
  }

  /**
   When an existing target cannot be removed, nothing is renamed: files
   and registry stay as they were and the failure is reported.
   */
  lemma RolloverRemoveFails(s: Sys, env: Env, key: string, p: string)
    requires HoldsFile(s, key, p)
    requires |ContentOf(s.fs, p)| > MaxFileSize
    requires RolloverTarget(s, key) in s.fs && RolloverTarget(s, key) in env.removeFails
    ensures RolloverStep(s, env, key) == Ok(Report(s, CouldNotDelete(RolloverTarget(s, key))))
  {
  }

  /**
   When the file system refuses the rename, QFile has already closed the
   file: key keeps its helper, now on a closed file, every other entry is
   unchanged, only the old rolled target (if any) is gone and the failure
   is reported. The file is still oversized, so the next pass tries again.
   */
  lemma RolloverRenameFails(s: Sys, env: Env, key: string, p: string)
    requires HoldsFile(s, key, p)
    requires p == PathOf(s.log, key)
    requires |ContentOf(s.fs, p)| > MaxFileSize
    requires var t := RolloverTarget(s, key); t !in s.fs || t !in env.removeFails
    requires p in env.renameFails
    ensures var r := RolloverStep(s, env, key);
      && r.Ok?
      && Lookup(r.sys.log.categories, key) == Some(Closed(p))
      && (forall n :: n != key ==> Lookup(r.sys.log.categories, n) == Lookup(s.log.categories, n))
      && r.sys.log.(categories := s.log.categories) == s.log
      && r.sys.fs == s.fs - {RolloverTarget(s, key)}
      && r.sys.diagnostics == s.diagnostics + [CouldNotRename(p)]
      && Oversized(r.sys, key)
  {
    var t := RolloverTarget(s, key);
    assert RolloverStep(s, env, key) == RollTo(s, env, key, p, t);
    RollToRenameRefused(s, env, key, p, t);
  }

  /** A rename the file system refuses leaves key's helper on its closed file and reports once. */
  lemma RollToRenameRefused(s: Sys, env: Env, key: string, p: string, t: string)
    requires HoldsFile(s, key, p) && t != p
    requires t !in s.fs || t !in env.removeFails
    requires p in s.fs && p in env.renameFails
    ensures var cleared := s.(fs := s.fs - {t});
      RollTo(s, env, key, p, t) == Ok(WithCategories(Report(cleared, CouldNotRename(p)), Put(s.log.categories, key, Closed(p))))
  {
  }

  /**
   A successful rollover loses nothing: the rolled target holds exactly
   the old content of the active file, and key is registered again on its
   original path, now holding an empty file, or left with a deleted helper
   when that reopen fails. Files other than the two are untouched.
   */
  lemma RolloverSucceeds(s: Sys, env: Env, key: string, p: string)
    requires Sorted(s.log.categories)
    requires HoldsFile(s, key, p)
    requires p == PathOf(s.log, key)
    requires |ContentOf(s.fs, p)| > MaxFileSize
    requires var t := RolloverTarget(s, key); t !in s.fs || t !in env.removeFails
    requires RenameSucceeds(s.fs - {RolloverTarget(s, key)}, env, p, RolloverTarget(s, key))
    ensures var r := RolloverStep(s, env, key);
      var t := RolloverTarget(s, key);
      && r.Ok?
      && ContentOf(r.sys.fs, t) == ContentOf(s.fs, p)
      && (p !in env.openFails ==> Lookup(r.sys.log.categories, key) == Some(Open(p)) && p in r.sys.fs && ContentOf(r.sys.fs, p) == "")
      && (p in env.openFails ==> Lookup(r.sys.log.categories, key) == Some(Stale) && p !in r.sys.fs)
      && (forall q :: q != p && q != t ==> ContentOf(r.sys.fs, q) == ContentOf(s.fs, q))
      && (forall n :: n != key ==> Lookup(r.sys.log.categories, n) == Lookup(s.log.categories, n))
      && Keys(r.sys.log.categories) == Keys(s.log.categories)
  {
    var t := RolloverTarget(s, key);
    RolledPathNotActive(s.log.fullLogFolder, key, key, AvailableIndex(Listing(s.fs, s.log.fullLogFolder), key));
    assert RolloverStep(s, env, key) == RollTo(s, env, key, p, t);
    RollToSucceeds(s, env, key, p, t);
  }

  lemma RollToSucceeds(s: Sys, env: Env, key: string, p: string, t: string)
    requires Sorted(s.log.categories)
    requires HoldsFile(s, key, p)
    requires p == PathOf(s.log, key) && t != p
    requires t !in s.fs || t !in env.removeFails
    requires RenameSucceeds(s.fs - {t}, env, p, t)
    ensures var r := RollTo(s, env, key, p, t);
      && ContentOf(r.sys.fs, t) == ContentOf(s.fs, p)
      && (p !in env.openFails ==> Lookup(r.sys.log.categories, key) == Some(Open(p)) && p in r.sys.fs && ContentOf(r.sys.fs, p) == "")
      && (p in env.openFails ==> Lookup(r.sys.log.categories, key) == Some(Stale) && p !in r.sys.fs)
      && (forall q :: q != p && q != t ==> ContentOf(r.sys.fs, q) == ContentOf(s.fs, q))
      && (forall n :: n != key ==> Lookup(r.sys.log.categories, n) == Lookup(s.log.categories, n))
      && Keys(r.sys.log.categories) == Keys(s.log.categories)
  {
    var cleared := s.(fs := s.fs - {t});
    var renamed := cleared.(fs := (cleared.fs - {p})[t := cleared.fs[p]]);
    RenameMovesContent(s.fs, p, t);
    var stale := Put(s.log.categories, key, Stale);
    var closed := WithCategories(renamed, stale);
    assert CleanCategory(renamed, key) == Ok(closed);
    var o := OpenLogFile(closed, env, key);
    assert RollTo(s, env, key, p, t) == Ok(o.sys);
    assert PathOf(closed.log, key) == p;
    assert key in Names(s.log.categories);
    PutExistingKeepsKeys(s.log.categories, key, Stale);
    PutPreservesSorted(s.log.categories, key, Stale);
    assert key in Names(stale);
    PutExistingKeepsKeys(stale, key, Open(p));
  }

  /** Removing t and renaming p onto it moves p's content to t and touches no other file. */
  lemma RenameMovesContent(fs: FileSystem, p: string, t: string)
    requires p != t && p in fs
    ensures var fs' := ((fs - {t}) - {p})[t := (fs - {t})[p]];
      && ContentOf(fs', t) == ContentOf(fs, p)
      && p !in fs'
      && forall q :: q != p && q != t ==> ContentOf(fs', q) == ContentOf(fs, q)
  {
  }

  /** When no category is past MaxFileSize, postLog changes nothing. */
  lemma {:induction false} PostLogKeysNothingOversized(keys: seq<string>, s: Sys, env: Env)
    requires forall k :: k in keys ==> Lookup(s.log.categories, k).Some? && Live(Lookup(s.log.categories, k).value)
    requires forall k :: k in keys ==> !Oversized(s, k)
    ensures PostLogKeys(keys, s, env) == Ok(s)
  {
    if |keys| > 0 {
      assert keys[0] in keys;
      PostLogKeysNothingOversized(keys[1..], s, env);
    }
  }

  /** A pass over a registry of live helpers, none of them on an oversized file, is a no-op. */
  lemma PostLogNothingOversized(s: Sys, env: Env)
    requires forall i :: 0 <= i < |s.log.categories| ==> Live(s.log.categories[i].entry)
    requires Sorted(s.log.categories)
    requires forall i :: 0 <= i < |s.log.categories| ==> !Oversized(s, s.log.categories[i].name)
    ensures PostLog(s, env) == Ok(s)
  {
    var reg := s.log.categories;
    forall k | k in Keys(reg)
      ensures Lookup(reg, k).Some? && Live(Lookup(reg, k).value)
      ensures !Oversized(s, k)
    {
      var i :| 0 <= i < |reg| && Keys(reg)[i] == k;
      LookupSlot(reg, i);
    }
    PostLogKeysNothingOversized(Keys(reg), s, env);
  }

  /** postLog's loop with every step mended as in RolloverStepErasing. */
  function PostLogKeysErasing(keys: seq<string>, s: Sys, env: Env): (r: Outcome)
    ensures r.Ok? || r.Undefined?
    ensures r.Ok? ==> r.sys.log.(categories := s.log.categories) == s.log
    ensures r.Ok? ==> forall n :: n !in keys ==> Lookup(r.sys.log.categories, n) == Lookup(s.log.categories, n)
    decreases |keys|
  {
    if |keys| == 0 then Ok(s)
    else
      match RolloverStepErasing(s, env, keys[0])
      case Ok(s') => PostLogKeysErasing(keys[1..], s', env)
      case other => other
  }

  /**
   With every step mended, a whole pass over distinct registered keys of
   a map whose helpers are all live returns normally and leaves every
   helper live: a failed reopen anywhere in the pass only drops that key.
   */
  lemma {:induction false} PostLogKeysErasingKeepsLive(keys: seq<string>, s: Sys, env: Env)
    requires forall i, j :: 0 <= i < j < |keys| ==> keys[i] != keys[j]
    requires forall k :: k in keys ==> Lookup(s.log.categories, k).Some?
    requires AllLive(s)
    ensures var r := PostLogKeysErasing(keys, s, env); r.Ok? && AllLive(r.sys)
  {
    if |keys| > 0 {
      assert keys[0] in keys;
      var step := RolloverStepErasing(s, env, keys[0]);
      assert step.Ok?;
      var s' := step.sys;
      forall k | k in keys[1..]
        ensures Lookup(s'.log.categories, k).Some?
      {
        var j :| 0 <= j < |keys[1..]| && keys[1..][j] == k;
        assert keys[j + 1] == k;
        assert k in keys;
      }
      forall n | Lookup(s'.log.categories, n).Some?
        ensures Live(Lookup(s'.log.categories, n).value)
      {
        if n != keys[0] {
          assert Lookup(s'.log.categories, n) == Lookup(s.log.categories, n);
        }
      }
      PostLogKeysErasingKeepsLive(keys[1..], s', env);
    }
  }
}

=== FILE: rollover_index.dfy ===
/**
 Log::getAvailableLogFileIndex: the number a category's oversized file is
 renamed to. The log folder is scanned for files named `<base>.log.*`;
 the text after each name's last '.' is read as an unsigned 32-bit
 number, unreadable suffixes are skipped, and the result is one past the
 largest suffix found (at least 1), reset to 1 once it would pass
 MaxFileIndex.

 The source accumulates in a quint32, so a suffix of 4294967295 wraps the
 running value to 0. AvailableIndexAsWritten models that loop exactly;
 AvailableIndex is the intended set-level definition, used by the rest
 of the model, and AvailableIndexOfListing is the same loop on unbounded
 numbers, proved equal to it.
 */
module RolloverIndex {
  import opened Options
  import opened Text

  /** MAX_FILE_INDEX: the largest index a rolled file receives. */
  const MaxFileIndex: nat := 100

  /** DEFAULT_LOG_EXTENSION. */
  const LogExtension: string := ".log"

  /** quint32 arithmetic works modulo this. */
  const UInt32Modulus: nat := 0x1_0000_0000

  /** `<base>.log.<idx>`: the name a rolled file receives. */
  function RolledName(base: string, idx: nat): string {
    base + LogExtension + "." + NatToString(idx)
  }

  /** The name filter `<base>.log.*`, with the category name read literally. */
  predicate MatchesRolled(fileName: string, base: string) {
    StartsWith(fileName, base + LogExtension + ".")
  }

  /** The number after a file name's last '.', when it reads as a quint32. */
  function SuffixValue(fileName: string): Option<nat> {
    ParseUInt(LastSection(fileName))
  }

  /** True when a file name takes part in the scan for base. */
  predicate Counted(fileName: string, base: string) {
    MatchesRolled(fileName, base) && SuffixValue(fileName).Some?
  }

  /** The numeric suffixes of the rolled files of base among names. */
  function Suffixes(names: set<string>, base: string): (vs: set<nat>)
  {
    set n | n in names && Counted(n, base) :: SuffixValue(n).value
  }

  /** The largest element of a set of numbers, 0 for the empty set. */
  function MaxOf(s: set<nat>): (m: nat)
    ensures s == {} ==> m == 0
    ensures s != {} ==> m in s
    ensures forall x :: x in s ==> x <= m
  {
    if s == {} then 0
    else
      MaxExists(s);
      var m :| m in s && (forall x | x in s :: x <= m); m
  }

  lemma MaxExists(s: set<nat>)
    requires s != {}
    ensures exists m :: m in s && forall x | x in s :: x <= m
  {
    var y :| y in s;
    var rest := s - {y};
    if rest == {} {
      assert s == {y};
      assert forall x | x in s :: x <= y;
    } else {
      MaxExists(rest);
      var m :| m in rest && forall x | x in rest :: x <= m;
      var top := if y > m then y else m;
      assert top in s;
      forall x | x in s
        ensures x <= top
      {
        if x != y {
          assert x in rest;
        }
      }
    }
  }

  /** True when some rolled file of base already carries an index of at least MaxFileIndex. */
  predicate Wrapped(names: set<string>, base: string) {
    exists v :: v in Suffixes(names, base) && v >= MaxFileIndex
  }

  /**
   The index the next rolled file of base receives: one past every suffix
   present, or 1 when that would pass MaxFileIndex.
   */
  function AvailableIndex(names: set<string>, base: string): (r: nat)
    ensures 1 <= r <= MaxFileIndex
    ensures r > 1 ==> r - 1 in Suffixes(names, base)
    ensures r > 1 ==> forall v :: v in Suffixes(names, base) ==> v < r
    ensures r == 1 <==> Wrapped(names, base) || forall v :: v in Suffixes(names, base) ==> v == 0
  {
    var next := MaxOf(Suffixes(names, base)) + 1;
    if next > MaxFileIndex then 1 else next
  }

  /** The set of names a directory listing holds. */
  function NamesOf(listing: seq<string>): set<string> {
    set n | n in listing
  }

  /** One turn of the scan loop, on unbounded numbers. */
  function ScanStep(acc: nat, fileName: string, base: string): nat {
    if Counted(fileName, base) && SuffixValue(fileName).value >= acc then SuffixValue(fileName).value + 1 else acc
  }

  /** The scan loop over a directory listing, in listing order, on unbounded numbers. */
  function Scan(listing: seq<string>, base: string, acc: nat): nat
    decreases |listing|
  {
    if |listing| == 0 then acc else Scan(listing[1..], base, ScanStep(acc, listing[0], base))
  }

  /** The loop of getAvailableLogFileIndex with the wrap-around removed. */
  function AvailableIndexOfListing(listing: seq<string>, base: string): nat {
    var next := Scan(listing, base, 1);
    if next > MaxFileIndex then 1 else next
  }

  /** One turn of the scan loop as written: `fileIndex + 1` is computed in a quint32. */
  function ScanStep32(acc: nat, fileName: string, base: string): nat {
    if Counted(fileName, base) && SuffixValue(fileName).value >= acc then (SuffixValue(fileName).value + 1) % UInt32Modulus else acc
  }

  function Scan32(listing: seq<string>, base: string, acc: nat): nat
    decreases |listing|
  {
    if |listing| == 0 then acc else Scan32(listing[1..], base, ScanStep32(acc, listing[0], base))
  }

  /** getAvailableLogFileIndex exactly as written, quint32 wrap-around included. */
  function AvailableIndexAsWritten(listing: seq<string>, base: string): (r: nat)
    ensures r <= MaxFileIndex
  {
    var next := Scan32(listing, base, 1);
    if next > MaxFileIndex then 1 else next
  }

  /**
   The scan never goes below its start, ends above every suffix it reads,
   and ends either where it started or one past a suffix it read.
   */
  lemma {:induction false} ScanBounds(listing: seq<string>, base: string, acc: nat)
    ensures Scan(listing, base, acc) >= acc
    ensures forall i :: 0 <= i < |listing| && Counted(listing[i], base) ==>
      SuffixValue(listing[i]).value < Scan(listing, base, acc) || SuffixValue(listing[i]).value < acc
    ensures Scan(listing, base, acc) == acc ||
      exists i :: 0 <= i < |listing| && Counted(listing[i], base) && SuffixValue(listing[i]).value + 1 == Scan(listing, base, acc)
  {
    if |listing| > 0 {
      var tail := listing[1..];
      var acc' := ScanStep(acc, listing[0], base);
      var r := Scan(listing, base, acc);
      ScanBounds(tail, base, acc');
      assert r == Scan(tail, base, acc');
      forall i | 0 <= i < |listing| && Counted(listing[i], base)
        ensures SuffixValue(listing[i]).value < r || SuffixValue(listing[i]).value < acc
      {
        if i > 0 {
          assert listing[i] == tail[i - 1];
        }
      }
      if r != acc && r != acc' {
        var j :| 0 <= j < |tail| && Counted(tail[j], base) && SuffixValue(tail[j]).value + 1 == r;
        assert listing[j + 1] == tail[j];
      }
    }
  }

  /** The unbounded loop computes the set-level index, whatever the listing order. */
  lemma ListingMatchesSet(listing: seq<string>, base: string)
    ensures AvailableIndexOfListing(listing, base) == AvailableIndex(NamesOf(listing), base)
  {
    ScanIsMaxPlusOne(listing, base);
  }

  /** Started at 1, the scan ends one past the largest suffix in the listing. */
  lemma ScanIsMaxPlusOne(listing: seq<string>, base: string)
    ensures Scan(listing, base, 1) == MaxOf(Suffixes(NamesOf(listing), base)) + 1
  {
    ScanBounds(listing, base, 1);
    var r := Scan(listing, base, 1);
    var vs := Suffixes(NamesOf(listing), base);
    var m := MaxOf(vs);
    if vs != {} {
      MaxBelowScan(listing, base, m);
    }
    if r != 1 {
      ScanEndsPastSuffix(listing, base);
    }
  }

  lemma MaxBelowScan(listing: seq<string>, base: string, m: nat)
    requires m in Suffixes(NamesOf(listing), base)
    ensures m < Scan(listing, base, 1)
  {
    ScanBounds(listing, base, 1);
    var n :| n in NamesOf(listing) && Counted(n, base) && SuffixValue(n) == Some(m);
    var i :| 0 <= i < |listing| && listing[i] == n;
  }

  lemma ScanEndsPastSuffix(listing: seq<string>, base: string)
    requires Scan(listing, base, 1) != 1
    ensures Scan(listing, base, 1) - 1 in Suffixes(NamesOf(listing), base)
  {
    ScanBounds(listing, base, 1);
    var r := Scan(listing, base, 1);
    var i :| 0 <= i < |listing| && Counted(listing[i], base) && SuffixValue(listing[i]).value + 1 == r;
    assert listing[i] in NamesOf(listing);
  }

  /** Two listings of the same directory give the same index, in whatever order they list it. */
  lemma ListingOrderIrrelevant(l1: seq<string>, l2: seq<string>, base: string)
    requires forall n :: n in l1 <==> n in l2
    ensures AvailableIndexOfListing(l1, base) == AvailableIndexOfListing(l2, base)
  {
    ListingMatchesSet(l1, base);
    ListingMatchesSet(l2, base);
    assert NamesOf(l1) == NamesOf(l2);
  }

  /** While no suffix is 4294967295, the quint32 loop and the unbounded loop agree. */
  lemma {:induction false} Scan32AgreesBelowWrap(listing: seq<string>, base: string, acc: nat)
    requires acc < UInt32Modulus
    requires forall n :: n in listing && Counted(n, base) ==> SuffixValue(n).value < UInt32Max
    ensures Scan32(listing, base, acc) == Scan(listing, base, acc)
  {
    if |listing| > 0 {
      assert listing[0] in listing;
      assert ScanStep32(acc, listing[0], base) == ScanStep(acc, listing[0], base);
      Scan32AgreesBelowWrap(listing[1..], base, ScanStep(acc, listing[0], base));
    }
  }

  lemma AsWrittenAgreesBelowWrap(listing: seq<string>, base: string)
    requires forall n :: n in listing && Counted(n, base) ==> SuffixValue(n).value < UInt32Max
    ensures AvailableIndexAsWritten(listing, base) == AvailableIndex(NamesOf(listing), base)
  {
    Scan32AgreesBelowWrap(listing, base, 1);
    ListingMatchesSet(listing, base);
  }

  /** A rolled file name is matched by its base's filter and reads back as its index. */
  lemma RolledNameSuffix(base: string, idx: nat)
    requires idx <= UInt32Max
    ensures MatchesRolled(RolledName(base, idx), base)
    ensures SuffixValue(RolledName(base, idx)) == Some(idx)
  {
    var digits := NatToString(idx);
    assert RolledName(base, idx) == (base + LogExtension) + "." + digits;
    assert RolledName(base, idx)[..|base + LogExtension + "."|] == base + LogExtension + ".";
    assert '.' !in digits;
    LastSectionAfterDot(base + LogExtension, digits);
    ParseNatToString(idx);
  }

  /**
   A folder holding only `<base>.log.4294967295` makes the loop as written
   answer 0, an index outside 1..MaxFileIndex, where the intended answer is 1.
   */
  lemma AsWrittenWrapsToZero(base: string)
    ensures AvailableIndexAsWritten([RolledName(base, UInt32Max)], base) == 0
    ensures AvailableIndex(NamesOf([RolledName(base, UInt32Max)]), base) == 1
  {
    RolledNameSuffix(base, UInt32Max);
    assert Scan32([RolledName(base, UInt32Max)], base, 1) == 0;
    assert UInt32Max in Suffixes(NamesOf([RolledName(base, UInt32Max)]), base);
  }

  /**
   With the same two files listed in the two orders, the loop as written
   answers 6 and 0: its result depends on the listing order.
   */
  lemma AsWrittenDependsOnOrder(base: string)
    ensures AvailableIndexAsWritten([RolledName(base, UInt32Max), RolledName(base, 5)], base) == 6
    ensures AvailableIndexAsWritten([RolledName(base, 5), RolledName(base, UInt32Max)], base) == 0
  {
    var big := RolledName(base, UInt32Max);
    var five := RolledName(base, 5);
    RolledNameSuffix(base, UInt32Max);
    RolledNameSuffix(base, 5);
    assert ScanStep32(1, big, base) == 0;
    assert ScanStep32(0, five, base) == 6;
    assert ScanStep32(1, five, base) == 6;
    assert ScanStep32(6, big, base) == 0;
    assert Scan32([big, five], base, 1) == Scan32([five], base, 0) == Scan32([], base, 6);
    assert Scan32([five, big], base, 1) == Scan32([big], base, 6) == Scan32([], base, 0);
  }

  /**
   QDir lists a folder in name order. In that order `<base>.log.4294967295`
   comes before `<base>.log.5`, and the loop as written answers 6; it comes
   after `<base>.log.10`, and the loop answers 0. The intended index is 1
   for both folders.
   */
  lemma AsWrittenInNameOrder(base: string)
    ensures Less(RolledName(base, UInt32Max), RolledName(base, 5))
    ensures AvailableIndexAsWritten([RolledName(base, UInt32Max), RolledName(base, 5)], base) == 6
    ensures Less(RolledName(base, 10), RolledName(base, UInt32Max))
    ensures AvailableIndexAsWritten([RolledName(base, 10), RolledName(base, UInt32Max)], base) == 0
    ensures AvailableIndex(NamesOf([RolledName(base, UInt32Max), RolledName(base, 5)]), base) == 1
    ensures AvailableIndex(NamesOf([RolledName(base, 10), RolledName(base, UInt32Max)]), base) == 1
  {
    NameOrderAroundWrap(base);
    AsWrittenDependsOnOrder(base);
    TenThenWrapGivesZero(base);
    WrapInFolderIntendsOne(base);
  }

  lemma NameOrderAroundWrap(base: string)
    ensures Less(RolledName(base, UInt32Max), RolledName(base, 5))
    ensures Less(RolledName(base, 10), RolledName(base, UInt32Max))
  {
    var stem := base + LogExtension + ".";
    NatToStringStartsWithLeadingDigit(UInt32Max);
    NatToStringStartsWithLeadingDigit(10);
    assert LeadingDigit(UInt32Max) == 4;
    assert NatToString(5) == "5";
    LessAfterPrefix(stem, NatToString(UInt32Max), NatToString(5));
    LessAfterPrefix(stem, NatToString(10), NatToString(UInt32Max));
  }

  lemma TenThenWrapGivesZero(base: string)
    ensures AvailableIndexAsWritten([RolledName(base, 10), RolledName(base, UInt32Max)], base) == 0
  {
    var big := RolledName(base, UInt32Max);
    var ten := RolledName(base, 10);
    RolledNameSuffix(base, UInt32Max);
    RolledNameSuffix(base, 10);
    assert ScanStep32(1, ten, base) == 11;
    assert ScanStep32(11, big, base) == 0;
    assert Scan32([ten, big], base, 1) == Scan32([big], base, 11) == Scan32([], base, 0);
  }

  lemma WrapInFolderIntendsOne(base: string)
    ensures AvailableIndex(NamesOf([RolledName(base, UInt32Max), RolledName(base, 5)]), base) == 1
    ensures AvailableIndex(NamesOf([RolledName(base, 10), RolledName(base, UInt32Max)]), base) == 1
  {
    var big := RolledName(base, UInt32Max);
    RolledNameSuffix(base, UInt32Max);
    assert big in NamesOf([big, RolledName(base, 5)]) && big in NamesOf([RolledName(base, 10), big]);
    assert UInt32Max in Suffixes(NamesOf([big, RolledName(base, 5)]), base);
    assert UInt32Max in Suffixes(NamesOf([RolledName(base, 10), big]), base);
  }

  /** Adding one name to a folder adds at most its own suffix to the suffixes seen. */
  lemma SuffixesInsert(names: set<string>, n: string, base: string)
    ensures Suffixes(names + {n}, base)
      == Suffixes(names, base) + (if Counted(n, base) then {SuffixValue(n).value} else {})
  {
  }

  /** A file whose suffix does not read as a number, or that the filter rejects, never changes the index. */
  lemma UncountedNameIgnored(names: set<string>, n: string, base: string)
    requires !Counted(n, base)
    ensures AvailableIndex(names + {n}, base) == AvailableIndex(names, base)
  {
    SuffixesInsert(names, n, base);
  }

  /**
   After a file is rolled to index idx, the next rollover of the same base
   uses idx + 1, unless idx reached MaxFileIndex or the folder had already
   wrapped; then it uses 1 again, so once `<base>.log.100` exists every
   later rollover overwrites `<base>.log.1`.
   */
  lemma NextIndexAfterRollover(names: set<string>, base: string)
    ensures var idx := AvailableIndex(names, base);
      AvailableIndex(names + {RolledName(base, idx)}, base)
        == if idx < MaxFileIndex && !Wrapped(names, base) then idx + 1 else 1
  {
    var idx := AvailableIndex(names, base);
    var rolled := RolledName(base, idx);
    var names' := names + {rolled};
    RolledNameSuffix(base, idx);
    SuffixesInsert(names, rolled, base);
    var vs := Suffixes(names, base);
    var vs' := Suffixes(names', base);
    assert vs' == vs + {idx};
    if Wrapped(names, base) {
      var v :| v in vs && v >= MaxFileIndex;
      assert v in vs';
      assert Wrapped(names', base);
    } else if idx < MaxFileIndex {
      assert idx == MaxOf(vs) + 1;
      assert forall v :: v in vs' ==> v <= idx;
      assert MaxOf(vs') == idx;
    } else {
      assert idx in vs';
      assert Wrapped(names', base);
    }
  }

  /** The example of the header: `test.log` beside `test.log.1` gives index 2. */
  lemma ExampleSecondRollover()
    ensures AvailableIndex({"test.log", "test.log.1"}, "test") == 2
  {
    RolledNameSuffix("test", 1);
    assert RolledName("test", 1) == "test.log.1";
    assert !MatchesRolled("test.log", "test");
    SuffixesInsert({}, "test.log", "test");
    SuffixesInsert({"test.log"}, "test.log.1", "test");
    assert {"test.log"} + {"test.log.1"} == {"test.log", "test.log.1"};
    assert Suffixes({"test.log", "test.log.1"}, "test") == {1};
    assert MaxOf({1}) == 1;
  }

  /** Rolled files 1, 2 and 4 give index 5: gaps are not filled. */
  lemma ExampleGapsNotFilled()
    ensures AvailableIndex({"foo.log.1", "foo.log.2", "foo.log.4"}, "foo") == 5
  {
    GapsSuffixes();
    assert MaxOf({1, 2, 4}) == 4;
  }

  lemma GapsSuffixes()
    ensures Suffixes({"foo.log.1", "foo.log.2", "foo.log.4"}, "foo") == {1, 2, 4}
  {
    GapsFirstTwo();
    FooFourCounted();
    SuffixesInsert({"foo.log.1", "foo.log.2"}, "foo.log.4", "foo");
    assert {"foo.log.1", "foo.log.2"} + {"foo.log.4"} == {"foo.log.1", "foo.log.2", "foo.log.4"};
  }

  lemma GapsFirstTwo()
    ensures Suffixes({"foo.log.1", "foo.log.2"}, "foo") == {1, 2}
  {
    FooOneCounted();
    FooTwoCounted();
    SuffixesInsert({"foo.log.1"}, "foo.log.2", "foo");
    assert {"foo.log.1"} + {"foo.log.2"} == {"foo.log.1", "foo.log.2"};
  }

  lemma FooOneCounted()
    ensures Counted("foo.log.1", "foo") && SuffixValue("foo.log.1") == Some(1)
    ensures Suffixes({"foo.log.1"}, "foo") == {1}
  {
    RolledNameSuffix("foo", 1);
    assert RolledName("foo", 1) == "foo.log.1";
    SuffixesInsert({}, "foo.log.1", "foo");
    assert {} + {"foo.log.1"} == {"foo.log.1"};
  }

  lemma FooTwoCounted()
    ensures Counted("foo.log.2", "foo") && SuffixValue("foo.log.2") == Some(2)
  {
    RolledNameSuffix("foo", 2);
    assert RolledName("foo", 2) == "foo.log.2";
  }

  lemma FooFourCounted()
    ensures Counted("foo.log.4", "foo") && SuffixValue("foo.log.4") == Some(4)
  {
    RolledNameSuffix("foo", 4);
    assert RolledName("foo", 4) == "foo.log.4";
  }
}

=== FILE: text.dfy ===
/**
 String helpers the log component relies on: prefix tests, the last
 `.`-separated section of a file name (QString::section('.', -1)), base-10
 unsigned parsing with the 32-bit range check of QString::toUInt, decimal
 formatting (QString::number) and the ordering QMap uses for its keys.
 */
module Text {
  import opened Options

  /** Largest value a quint32 holds. */
  const UInt32Max: nat := 4294967295

  predicate StartsWith(s: string, prefix: string) {
    |prefix| <= |s| && s[..|prefix|] == prefix
  }

  predicate IsDigit(c: char) {
    '0' <= c <= '9'
  }

  predicate AllDigits(s: string) {
    forall i :: 0 <= i < |s| ==> IsDigit(s[i])
  }

  function DigitValue(c: char): nat
    requires IsDigit(c)
  {
    c as int - '0' as int
  }

  function DigitChar(d: nat): (c: char)
    requires d < 10
    ensures IsDigit(c) && DigitValue(c) == d
  {
    ('0' as int + d) as char
  }

  /** Value of a string of decimal digits, most significant digit first. */
  function DigitsValue(s: string): nat
    requires AllDigits(s)
  {
    if |s| == 0 then 0 else DigitsValue(s[..|s| - 1]) * 10 + DigitValue(s[|s| - 1])
  }

  /**
   Base-10 conversion to an unsigned 32-bit number. Succeeds exactly on a
   non-empty run of ASCII digits whose value fits in 32 bits; leading zeros
   are accepted.
   */
  function ParseUInt(s: string): (r: Option<nat>)
    ensures r.Some? ==> |s| > 0 && AllDigits(s) && r.value == DigitsValue(s) && r.value <= UInt32Max
    ensures |s| == 0 || !AllDigits(s) ==> r == None
    ensures |s| > 0 && AllDigits(s) && DigitsValue(s) <= UInt32Max ==> r == Some(DigitsValue(s))
  {
    if |s| > 0 && AllDigits(s) && DigitsValue(s) <= UInt32Max then Some(DigitsValue(s)) else None
  }

  /** Decimal spelling of n without leading zeros. */
  function NatToString(n: nat): (s: string)
    ensures |s| > 0 && AllDigits(s)
    ensures DigitsValue(s) == n
    ensures n > 0 ==> s[0] != '0'
  {
    if n < 10 then [DigitChar(n)]
    else
      var prefix := NatToString(n / 10);
      var s := prefix + [DigitChar(n % 10)];
      assert s[..|s| - 1] == prefix;
      s
  }

  /** The leading digit of n's decimal spelling. */
  function LeadingDigit(n: nat): (d: nat)
    ensures d < 10
  {
    if n < 10 then n else LeadingDigit(n / 10)
  }

  lemma {:induction false} NatToStringStartsWithLeadingDigit(n: nat)
    ensures NatToString(n)[0] == DigitChar(LeadingDigit(n))
  {
    if n >= 10 {
      NatToStringStartsWithLeadingDigit(n / 10);
    }
  }

  /** Formatting a 32-bit number and parsing it back gives the number. */
  lemma ParseNatToString(n: nat)
    requires n <= UInt32Max
    ensures ParseUInt(NatToString(n)) == Some(n)
  {
  }

  /** The text after the last '.', or the whole string when there is none. */
  function LastSection(s: string): string {
    if |s| == 0 || s[|s| - 1] == '.' then ""
    else LastSection(s[..|s| - 1]) + [s[|s| - 1]]
  }

  /**
   LastSection is the longest suffix free of '.': it is a suffix, holds no
   '.', and is either the whole string or preceded by a '.'. A string
   ending in '.' has an empty last section.
   */
  lemma {:induction false} LastSectionIsLastField(s: string)
    ensures var r := LastSection(s);
      && |r| <= |s| && r == s[|s| - |r|..]
      && '.' !in r
      && (|r| < |s| ==> s[|s| - |r| - 1] == '.')
  {
    if |s| > 0 && s[|s| - 1] != '.' {
      var init := s[..|s| - 1];
      LastSectionIsLastField(init);
      var r' := LastSection(init);
      assert LastSection(s) == r' + [s[|s| - 1]];
      assert s == init + [s[|s| - 1]];
    }
  }

  /** Whatever precedes the last '.', the section after it is what LastSection returns. */
  lemma {:induction false} LastSectionAfterDot(p: string, d: string)
    requires '.' !in d
    ensures LastSection(p + "." + d) == d
  {
    var s := p + "." + d;
    if |d| == 0 {
      assert s[|s| - 1] == '.';
    } else {
      var d' := d[..|d| - 1];
      assert s[..|s| - 1] == p + "." + d';
      assert d[|d| - 1] in d;
      LastSectionAfterDot(p, d');
      assert d' + [d[|d| - 1]] == d;
    }
  }

  /**
   Strict lexicographic order on strings, comparing characters by code
   point: the order in which the category map keeps its keys.
   */
  predicate Less(a: string, b: string) {
    |b| > 0 && (|a| == 0 || a[0] < b[0] || (a[0] == b[0] && Less(a[1..], b[1..])))
  }

  /** A common prefix does not change how two strings compare. */
  lemma {:induction false} LessAfterPrefix(p: string, a: string, b: string)
    requires Less(a, b)
    ensures Less(p + a, p + b)
  {
    if |p| > 0 {
      assert (p + a)[1..] == p[1..] + a;
      assert (p + b)[1..] == p[1..] + b;
      LessAfterPrefix(p[1..], a, b);
      assert (p + a)[0] == p[0] == (p + b)[0];
    } else {
      assert p + a == a && p + b == b;
    }
  }

  lemma {:induction false} LessIrreflexive(a: string)
    ensures !Less(a, a)
  {
    if |a| > 0 {
      LessIrreflexive(a[1..]);
    }
  }

  lemma {:induction false} LessTransitive(a: string, b: string, c: string)
    requires Less(a, b) && Less(b, c)
    ensures Less(a, c)
  {
    if |a| > 0 && a[0] == b[0] && b[0] == c[0] {
      LessTransitive(a[1..], b[1..], c[1..]);
    }
  }

  lemma {:induction false} LessTotal(a: string, b: string)
    requires a != b
    ensures Less(a, b) || Less(b, a)
  {
    if |a| > 0 && |b| > 0 && a[0] == b[0] {
      assert a == [a[0]] + a[1..] && b == [b[0]] + b[1..];
      LessTotal(a[1..], b[1..]);
    }
  }
}
